=== FILE: README.md ===
# Magnetar landing site: the motion logic, in Dafny

This project models the interactive parts of a marketing site built with React. The site is mostly static markup. Its behaviour lives in a few small pieces of arithmetic and state kept by six components:

- **Work page showreel** (`ScrollPhase`, app/work/page.tsx).
  - Turns the scroll position of a section twice the viewport high into a raw progress.
  - Turns the raw progress into a phase that starts at 15% and ends with it.
  - Derives a pin flag from the phase: the hero stays `fixed` until the phase reaches 1.
  - Derives eased text and overlay values from the phase.
  - A `ticking` flag coalesces scroll events into one update per animation frame.
- **Particle backdrop** (`ParticleField`, components/particles-background.tsx).
  - The canvas holds a number of particles proportional to its area.
  - Every frame each particle moves and bounces off the canvas edges.
  - Nearby pairs are joined by lines that fade quadratically with distance.
  - Particles near the pointer are joined to it by lines that fade linearly.
  - A resize regenerates the whole field.
- **Services list** (`ServiceHover`, components/services.tsx).
  - Moving the pointer over a card's right half focuses that card's service; the last matching card wins.
  - Leaving the section clears the focus.
  - Large screens (at least 768px) show a preview image.
- **Navigation bar** (`Navigation`, components/navigation.tsx).
  - The bar turns opaque once the page has scrolled more than 50px.
  - A mobile menu opens and closes with a button and closes when a link is followed.
- **Hero** (`Hero`, components/hero.tsx, with the shared `ClassList.Add` rule).
  - Elements with a scroll-reveal class gain "revealed" when the observer reports them intersecting.
  - The background drifts with the scroll, and three squares drift with the pointer.
- **Scroll effects** (`ScrollAnimations`, components/scroll-animations.tsx).
  - A wrapper gains "revealed" after a delay once it is seen.
  - A parallax wrapper shifts by the page offset times a speed factor.

How the model is built:
- Arithmetic is exact (`real`).
- Every callback the browser makes is an event in a sequence.
- Each component is a state record with a `Step` function and lemmas about every `Run` of events.
- `Math.random()` results, element geometry, observer verdicts and the clock are inputs.
- On the work page a zero window height makes a division degenerate. There, and only there, JavaScript's IEEE special values (`Infinity`, `NaN`) are modelled, with NaN propagation through `Math.min`/`Math.max` and `NaN < 1` being false.

Three behaviours of the code are worth stating up front:
- **Work page teardown.** The cleanup (app/work/page.tsx:57-60) removes the scroll and resize listeners but does not cancel an animation frame already requested. That frame still runs. By then React has cleared the section's ref, so `update()` returns at line 23 and nothing changes. `ScrollPhase.NoNewFramesAfterUnmount` states that no frame is requested and the height, phase and pin stay as they were.
- **Revealing never stops observation.** Neither reveal path (components/hero.tsx:27-33, components/scroll-animations.tsx:18-26) calls `unobserve` after an element's first reveal. A later intersection adds "revealed" again, which is a no-op (`Hero.CallbackIdempotent`).
- **Pointer lines.** The component registers a `mousemove` listener on the canvas (components/particles-background.tsx:158), but the canvas is `pointer-events-none` (line 169), so the listener never fires; see Findings.

## Model

| member | source | states |
|---|---|---|
| ScrollPhase.Divide | app/work/page.tsx:28 | the viewport division: finite exactly when the height is non-zero (then the exact quotient); 0/0 is NaN; a positive offset over zero height is +Infinity |
| ScrollPhase.Clamp | app/work/page.tsx:8-10 | NaN in gives NaN out; any other number lands in [min, max]; a number already inside is returned unchanged; infinities go to the ends |
| ScrollPhase.ClampIdempotent | app/work/page.tsx:8-10 | clamping twice is clamping once |
| ScrollPhase.ClampMonotone | app/work/page.tsx:8-10 | clamping preserves the order of finite numbers |
| ScrollPhase.RawProgress | app/work/page.tsx:28 | for a positive height: in [0, 1]; 0 while the section top is at or below the viewport top; 1 once it is a full height above; otherwise progress times height equals the distance scrolled. For zero height only the sign of the top survives, and top 0 gives NaN |
| ScrollPhase.RawProgressMonotone | app/work/page.tsx:28 | raw progress never decreases as the section moves up |
| ScrollPhase.Phase | app/work/page.tsx:30-34 | NaN exactly for NaN; in [0, 1] for finite input; 0 up to raw 0.15; for raw at most 1, equals 1 exactly when raw equals 1 |
| ScrollPhase.PhaseMonotone | app/work/page.tsx:31-34 | the phase is non-decreasing in the raw progress |
| ScrollPhase.PinnedUntilOneViewportScrolled | app/work/page.tsx:37 | for a positive height: pinned exactly while the phase is below 1, which is exactly while the section has scrolled less than one viewport height |
| ScrollPhase.ZeroViewportReleasesHero | app/work/page.tsx:28-37 | zero height with the section at the top gives a NaN phase and an unpinned hero |
| ScrollPhase.HeroFixedUntilOneViewportScrolled | app/work/page.tsx:102 | the hero class `pin ? "fixed" : "relative"` composed with the phase of lines 28-37: for a positive height the hero is `fixed` exactly while the section has scrolled less than one viewport height and `relative` from then on; with zero height and the section at the top it is `relative` |
| ScrollPhase.EaseOutCubic | app/work/page.tsx:11 | maps 0 to 0 and 1 to 1; on [0, 1] the result lies between its input and 1 |
| ScrollPhase.EaseOutCubicMonotone | app/work/page.tsx:11 | the easing is non-decreasing |
| ScrollPhase.TextTranslateY | app/work/page.tsx:66-67 | for a phase in [0, 1] the offset lies between 0 and 70% of the height plus 140; the full offset at phase 0, none at phase 1 |
| ScrollPhase.TextRises | app/work/page.tsx:63-67 | the text offset never grows as the phase grows |
| ScrollPhase.TextOpacity | app/work/page.tsx:68 | always in [0, 1]; 0 while the eased phase is at most 0.1; 1 at phase 1 |
| ScrollPhase.OverlayOpacity | app/work/page.tsx:71 | in [0, 0.75] for a phase in [0, 1]; 0 at phase 0 and 0.75 at phase 1 |
| ScrollPhase.OverlayBlur | app/work/page.tsx:72 | in [0, 16] for a phase in [0, 1]; 0 at phase 0 and 16 at phase 1 |
| ScrollPhase.OverlayMonotone | app/work/page.tsx:71-72 | overlay opacity and blur are non-decreasing in the phase |
| ScrollPhase.Update | app/work/page.tsx:22-38 | a missing section changes nothing; otherwise the phase comes from the geometry and the pin agrees with it, and nothing else changes |
| ScrollPhase.ScrollWhileTickingIsIgnored | app/work/page.tsx:40-48 | while a frame is pending, a scroll changes nothing |
| ScrollPhase.FrameClearsTicking | app/work/page.tsx:42-46 | the pending frame clears the flag and leaves no frame pending, so the next scroll requests a new one |
| ScrollPhase.StepConsistent | app/work/page.tsx:19-61 | every event keeps the invariant: one frame pending exactly while ticking, pin agrees with the phase, and the phase is NaN or in [0, 1] |
| ScrollPhase.RunConsistent | app/work/page.tsx:40-52 | after any event sequence the invariant holds and at most one frame is pending |
| ScrollPhase.MountConsistent | app/work/page.tsx:15-54 | mounting yields a consistent, listening controller with no frame pending |
| ScrollPhase.NoNewFramesAfterUnmount | app/work/page.tsx:22-60 | after cleanup no event requests a frame, and the height, phase and pin never change again, even when a frame requested before the cleanup runs |
| ParticleField.ParticleCount | components/particles-background.tsx:33 | the count is the floor of area / 8000, and 0 exactly when the area is below 8000 |
| ParticleField.NewParticle | components/particles-background.tsx:37-44 | from random inputs in [0, 1) a particle has x in [0, W), y in [0, H), velocities in [-0.75, 0.75), size in [0.5, 2) and opacity in [0.3, 0.7) |
| ParticleField.CreateParticles | components/particles-background.tsx:32-46 | exactly the count of particles, the i-th made from the i-th draws, all fresh when the draws are valid |
| ParticleField.UpdateParticle | components/particles-background.tsx:97-108 | the result is inside the canvas. A velocity component is kept (and the position advanced) when the step stays in range; otherwise it is negated and the position is pinned to an edge. Speeds are preserved, a bounce points inward, and size and opacity are untouched |
| ParticleField.StepAll | components/particles-background.tsx:132-135 | every particle is updated, in place and order; afterwards all lie inside the canvas, and every settled particle is still settled |
| ParticleField.SettledPreserved | components/particles-background.tsx:97-108 | speeds stay within 0.75 in magnitude; size and opacity stay in their creation ranges across updates |
| ParticleField.ConnectionOpacity | components/particles-background.tsx:119-124 | a pair line exists exactly below distance 150; a zero distance gives opacity 0.4 |
| ParticleField.ConnectionOpacityRange | components/particles-background.tsx:60-62 | below distance 150 the opacity lies in (0, 0.4] |
| ParticleField.ConnectionFades | components/particles-background.tsx:62 | the pair opacity never grows with distance |
| ParticleField.PointerOpacity | components/particles-background.tsx:85-86 | a pointer line exists exactly below distance 200, with opacity in (0, 0.3], and 0.3 at distance 0 |
| ParticleField.PointerFades | components/particles-background.tsx:86 | the pointer opacity never grows with distance |
| ParticleField.ConnectionPairs | components/particles-background.tsx:117-118 | the nested loops visit every pair i < j < n, never a particle with itself, each pair once, in lexicographic order |
| ParticleField.CanvasPointer | components/particles-background.tsx:140-144 | the pointer in canvas coordinates plus the canvas's offset gives back the client position |
| ParticleField.Resize | components/particles-background.tsx:152-155 | the field takes the new size, keeps the pointer, and holds exactly the count for the new area |
| ParticleField.StepHealthy | components/particles-background.tsx:110-155 | every event keeps the field healthy: area-proportional size, all particles inside and settled |
| ParticleField.RunHealthy | components/particles-background.tsx:110-155 | any event sequence keeps the field healthy |
| ParticleField.MountHealthy | components/particles-background.tsx:146-149 | mounting (size, populate, then one synchronous `animate()`) yields a healthy field of the window's size with the pointer at (0, 0), each particle one update on from its draws |
| ParticleField.MountBouncesAtOnce | components/particles-background.tsx:146-149 | on a 100 x 80 canvas a particle drawn at the left edge moving left has already bounced (velocity 0.75, x 0) when mounting returns |
| ParticleField.ResizeForgetsOldParticles | components/particles-background.tsx:34 | after a resize the field depends only on the new size, the draws and the pointer, not on the old particles |
| ParticleField.PointerTracksMouse | components/particles-background.tsx:140-144 | with moves delivered, the pointer is where the last move put it, or unchanged if there was none |
| ParticleField.PointerStuckAsWritten | components/particles-background.tsx:158-169 | as written the pointer stays at the mounted origin (0, 0) whatever happens |
| ParticleField.KeepsPointer | components/particles-background.tsx:158-169 | as written no event changes the pointer |
| ParticleField.PointerMoveLostAsWritten | components/particles-background.tsx:140-169 | on one move to (100, 50): delivered it lands there, as written it stays at (0, 0) |
| ServiceHover.ServiceNumbers | components/services.tsx:26-91 | eight services, numbered "01" to "08" in order, so all numbers are distinct |
| ServiceHover.LeftHalfNeverMatches | components/services.tsx:121-128 | a pointer strictly left of a card's midpoint never matches that card |
| ServiceHover.LastMatch | components/services.tsx:119-133 | a found card matches and no later card does; nothing is found exactly when no card matches, and null refs never match |
| ServiceHover.OnMouseTrack | components/services.tsx:112-140 | the focus is the service of the last card whose right half holds the pointer; with no more refs than services it is null exactly when no card matches |
| ServiceHover.MouseLeaveClearsFocus | components/services.tsx:146-148 | leaving clears the focus whatever it was and keeps the screen size |
| ServiceHover.ResizeMeasuresScreen | components/services.tsx:104-105 | the screen is large exactly from 768px on; the focus is kept |
| ServiceHover.RunKeepsFocusListed | components/services.tsx:112-148 | the focus is always null or a listed service |
| ServiceHover.HighlightExactlyOne | components/services.tsx:229 | comparing by number highlights exactly the focused card, or none without focus |
| ServiceHover.PreviewFollowsEvents | components/services.tsx:104-148 | the preview condition of line 284 after each handler: after a pointer move the preview shows exactly on a large screen with the pointer over the right half of a listed card; leaving hides it; a resize shows it exactly from 768px on with a focus |
| ServiceHover.Mounted | components/services.tsx:103-107 | the mount effect measures the screen once: nothing focused, large exactly from 768px on |
| ServiceHover.MountedNarrowShowsNoPreview | components/services.tsx:103-107 | mounted in a window narrower than 768px, no preview shows until a resize, whatever the pointer does |
| ServiceHover.NoPreviewOnSmallScreens | components/services.tsx:284 | on a small screen no sequence of pointer moves and leaves ever shows the preview |
| ServiceHover.SeparatorsBetweenCards | components/services.tsx:273 | every card but the last has a separator after it |
| Navigation.NavItemsTable | components/navigation.tsx:19-24 | the links are Services, About, Work, Contact; only Work is a route ("/work"); every other link is "#" plus its lower-cased label |
| Navigation.AnimationDelay | components/navigation.tsx:44 | the link delays are non-negative, and the first starts at once |
| Navigation.LaterLinksStartLater | components/navigation.tsx:44 | later links start strictly later |
| Navigation.ScrollThresholdIsStrict | components/navigation.tsx:12-14 | the bar is scrolled exactly when the offset exceeds 50 (exactly 50 is not), and the menu is untouched |
| Navigation.ToggleTwiceRestores | components/navigation.tsx:59 | the button flips the menu, and pressing twice restores the state |
| Navigation.LinkClickCloses | components/navigation.tsx:76 | a link click leaves the menu closed, whatever its state |
| Navigation.ScrolledFollowsLastScroll | components/navigation.tsx:11-17 | after any events, the scrolled flag is decided by the last scroll offset alone |
| Navigation.MenuParity | components/navigation.tsx:59 | without link clicks, the menu is open exactly when the start state and the parity of presses say so |
| Navigation.ClosedUntilPressed | components/navigation.tsx:76 | after a link click the menu stays closed until the button is pressed |
| Navigation.NavClass | components/navigation.tsx:28-30 | the bar's class always begins with its fixed layout classes |
| Navigation.NavClassReflectsScroll | components/navigation.tsx:28-30 | two states render the same bar class exactly when they agree on the scrolled flag |
| Navigation.MenuRoundTrip | components/navigation.tsx:8-76 | the menu starts hidden with the menu icon; one press shows it with the close icon; a link click hides it, restores the menu icon and returns to the initial state |
| ClassList.Add | components/hero.tsx:30 | "revealed" is present afterwards; nothing is removed and nothing else is added; adding a present class changes nothing |
| ClassList.AddIdempotent | components/scroll-animations.tsx:23 | adding twice is adding once |
| Hero.ObservedElements | components/hero.tsx:35-38 | the observed elements are exactly those carrying a selector class, in document order |
| Hero.ObserverCallback | components/hero.tsx:27-33 | an element gains "revealed" exactly when some entry reports it intersecting; every other element keeps its classes |
| Hero.NonIntersectingChangesNothing | components/hero.tsx:28-31 | entries that do not intersect leave the whole document unchanged |
| Hero.CallbackOnlyReveals | components/hero.tsx:27-33 | a callback removes nothing and adds nothing but "revealed" |
| Hero.CallbackIdempotent | components/hero.tsx:30 | delivering the same entries again changes nothing |
| Hero.UnobservedUntouched | components/hero.tsx:35-38 | an element the selector does not match keeps its classes |
| Hero.RevealedOnlyGrows | components/hero.tsx:27-33 | across callbacks classes only grow; an element ends revealed exactly when it started revealed or some callback reported it intersecting |
| Hero.BackgroundOffset | components/hero.tsx:61 | the drift is between 0 and the scroll offset for a non-negative offset, and 0 at the top |
| Hero.FloatingOffsetsLinear | components/hero.tsx:70-84 | the offsets are additive in the pointer position and zero at the origin |
| Hero.FloatingDirections | components/hero.tsx:70-84 | the first square follows the pointer; the second moves against it horizontally; the third moves against it vertically |
| Hero.InitialBackgroundAtRest | components/hero.tsx:11 | with scroll state 0 the background is not displaced |
| Hero.InitialSquaresAtRest | components/hero.tsx:10 | with the pointer state at (0, 0) no square is displaced |
| Hero.ScrollMovesBackgroundOnly | components/hero.tsx:18-20 | a scroll moves the background to a tenth of the offset and leaves the squares |
| Hero.PointerMovesSquaresOnly | components/hero.tsx:14-16 | a pointer move (its translations at lines 70-84) leaves the background alone and puts all three squares at the offsets of the new position: (0.01, 0.01), (-0.005, 0.005) and (0.008, -0.008) times it |
| ScrollAnimations.AnimationClass | components/scroll-animations.tsx:41-46 | every animation class is one the hero observes, and none contains a space |
| ScrollAnimations.AnimationClassBijective | components/scroll-animations.tsx:41-46 | distinct kinds give distinct classes, and the four classes are exactly the hero's selector list |
| ScrollAnimations.Resolve | components/scroll-animations.tsx:14 | a prop that is passed is used as given |
| ScrollAnimations.Defaults | components/scroll-animations.tsx:14 | no props means fade-up ("scroll-reveal"), delay 0 and an empty class name |
| ScrollAnimations.WrapperClassRoundTrip | components/scroll-animations.tsx:49 | splitting the wrapper class at its first space gives back the animation class and the caller's class name |
| ScrollAnimations.ToLong | components/scroll-animations.tsx:22-24 | the delay converted to a 32-bit `long`: in the signed range, congruent to the integer part modulo 2^32, and equal to it for numbers already in range |
| ScrollAnimations.TimerDelay | components/scroll-animations.tsx:22-24 | the wait is a whole number of milliseconds in [0, 2^31); a delay in [0, 2^31) waits its integer part; a delay in [-2^31, 0] does not wait |
| ScrollAnimations.TimerDelayConversion | components/scroll-animations.tsx:22-24 | a delay of 1.5 waits 1ms, -0.5 waits 0ms, and 2^32 + 5 wraps around to 5ms |
| ScrollAnimations.NewTimers | components/scroll-animations.tsx:20-25 | one timer per intersecting entry, each due at the same time |
| ScrollAnimations.OnEntries | components/scroll-animations.tsx:18-26 | a callback never touches the classes; while observing it appends exactly one timer, due after the delay, per intersecting entry; once disconnected it does nothing |
| ScrollAnimations.Tick | components/scroll-animations.tsx:22-24 | "revealed" is present afterwards exactly when it was before or some timer was due; nothing is removed; no due timer remains; every timer not yet due stays pending, and nothing else is pending |
| ScrollAnimations.RevealAfterDelay | components/scroll-animations.tsx:20-25 | one intersecting entry reveals the element exactly once the clock has reached the entry time plus the delay |
| ScrollAnimations.EarlyTicksChangeNothing | components/scroll-animations.tsx:22-24 | ticks before the one pending deadline leave the instance exactly as it was |
| ScrollAnimations.RevealDespiteEarlierTicks | components/scroll-animations.tsx:20-25 | after one intersecting entry and any ticks before its deadline, a tick reveals the element exactly when it reaches the entry time plus the delay |
| ScrollAnimations.PendingTimerFires | components/scroll-animations.tsx:20-25 | a started timer survives any callbacks, delay changes, unmounting and earlier ticks, and the first tick at or after its deadline reveals the element |
| ScrollAnimations.ClassesOnlyGrow | components/scroll-animations.tsx:20-25 | over any events classes only grow, and only by "revealed" |
| ScrollAnimations.NoIntersectionNoReveal | components/scroll-animations.tsx:20-25 | with no pending timer and no intersecting entry, the classes never change |
| ScrollAnimations.NoTimersAfterUnmount | components/scroll-animations.tsx:38 | after disconnecting, callbacks start no timers |
| ScrollAnimations.ParallaxOffset | components/scroll-animations.tsx:57-71 | the shift is 0 at the top of the page, and half the offset at the default speed |
| ScrollAnimations.ParallaxMonotone | components/scroll-animations.tsx:70 | for a non-negative speed the shift grows with the offset |
| ScrollAnimations.OnParallaxScroll | components/scroll-animations.tsx:67-73 | a mounted element gets the shift for the current offset: none at the top of the page, never negative for a non-negative offset and speed, half the offset at the default speed; with no element nothing changes |
| ScrollAnimations.ParallaxScrollsInStep | components/scroll-animations.tsx:67-75 | with a non-negative speed, a later scroll further down never shifts a mounted element less, and the transform reflects only the latest offset |
| ScrollAnimations.ParallaxClass | components/scroll-animations.tsx:80 | the class is as long as the fixed class "parallax-element " plus the caller's class name (its contents are stated by `ParallaxClassRoundTrip`) |
| ScrollAnimations.ParallaxClassRoundTrip | components/scroll-animations.tsx:80 | the class starts with "parallax-element " and the rest is exactly the caller's class name |

## Left out

- Canvas drawing is not modelled: arcs, gradients, shadows and the fading `fillRect`. The model states only which lines are drawn and with what opacity. The gradient's brighter middle stop (`opacity * 1.2`) is left out.
- `requestAnimationFrame` is modelled only as events. Unmounting is an event only on the work page (`ScrollPhase`) and in `ScrollAnimations`. The cleanups of the hero (components/hero.tsx:43-47, which also disconnects the observer), the navigation bar (components/navigation.tsx:16), the services list (components/services.tsx:109) and the particle backdrop (components/particles-background.tsx:160-166, which cancels the pending frame) are not modelled: their models describe a mounted component.
- The particle backdrop's early return when there is no canvas or no 2D context (components/particles-background.tsx:21-25) is not modelled. The model assumes both exist, as they do once the canvas is rendered in a browser.
- `Math.sqrt` and IEEE-754 rounding are left out. Distances are exact non-negative inputs.
- `Math.random()` is not called. Its results are inputs in [0, 1).
- Work page derived outputs (`ScrollPhase.TextTranslateY`, `TextOpacity`, `OverlayOpacity`, `OverlayBlur`) take a finite phase. With a zero-height window the phase can be NaN, and the CSS strings that NaN would produce are not modelled.
- The work page's server render, where the height state starts at 0 because there is no window, is not modelled. Mounting takes the window height.
- IntersectionObserver geometry (threshold 0.1, root margin -50px) is not modelled. Which entries intersect is an input.
- ScrollAnimations.TimerDelay: the delay is a real number, so NaN and the infinities, which the `long` conversion turns into 0, are not modelled. The HTML rule that raises the delay of timers nested more than five levels deep is also left out. It does not apply here, because the timers are started from an observer callback and not from another timer.
- ScrollAnimations.OnParallaxScroll: sets the transform to a number rather than the string `translateY(<n>px)`, because number formatting is not part of the behaviour.
- framer-motion springs are not modelled: the smoothing of the preview's motion and its enter/exit animation. They are library numerics.
- `onHoverActivate` (components/services.tsx:142-144) is not modelled. Its only use is commented out.
- Service descriptions and icons are not modelled. The hover logic never reads them.
- Hero's mouse and scroll handlers are modelled as state updates. The observer's `observe` calls are modelled as a snapshot taken at mount (`Hero.ObservedElements`). Elements added later are not observed, and that is not modelled.
- Not part of this model, because they hold no logic beyond static markup, configuration or foreign scripts: components/ScrollInspirationClone.tsx, components/projects.tsx, components/about.tsx, components/footer.tsx, app/page.tsx, app/layout.tsx.

## Findings

| source | as written | input that shows it | evidently intended | confidence | as-written member | corrected member |
|---|---|---|---|---|---|---|
| components/particles-background.tsx:158 | the `mousemove` listener is attached to the canvas, but the canvas is styled `pointer-events-none` (line 169), so the browser never dispatches pointer events to it and `mouseRef` stays at (0, 0) | a pointer move to client (100, 50) over a canvas at the page origin: the pointer stays at (0, 0), so every particle within 200px of the top-left corner is joined to that corner | pointer lines follow the pointer, as `drawMouseConnections` (lines 76-95) is written to do, e.g. with the listener on `window` as in components/hero.tsx:40 | high (not executed) | ParticleField.PointerStuckAsWritten | ParticleField.PointerTracksMouse |

=== FILE: class_list.dfy ===
/** An element's class list, as a set of class names. Both reveal paths
    (components/hero.tsx and components/scroll-animations.tsx) do nothing to
    it but `classList.add("revealed")`. */
module ClassList {

  /** The marker class the style sheet animates in. */
  const Revealed: string := "revealed"

  /** `classList.add(name)`: the name is present afterwards, nothing else is
      added or removed, and adding a name already present changes nothing. */
  function Add(classes: set<string>, name: string): (r: set<string>)
    ensures name in r
    ensures classes <= r
    ensures r - {name} == classes - {name}
    ensures name in classes ==> r == classes
  {
    classes + {name}
  }

  /** Adding twice is adding once. */
  lemma AddIdempotent(classes: set<string>, name: string)
    ensures Add(Add(classes, name), name) == Add(classes, name)
  {
  }
}

=== FILE: hero.dfy ===
/** The landing page's hero section (components/hero.tsx).

    On mount the hero observes every element of the document carrying one of
    the four scroll-reveal classes; whenever the observer reports an entry as
    intersecting, that element gains the class "revealed" (and nothing ever
    takes it away). The section also tracks the pointer and the scroll offset:
    the background drifts at a tenth of the scroll, and three small floating
    squares shift in proportion to the pointer position.

    The document is a sequence of class sets, one per element, and an element
    is its index; the observer's geometry (threshold, root margin) decides
    which entries intersect and is an input. */
module Hero {
  import opened ClassList

  // ---------------------------------------------------------------------------
  // Which elements are observed
  // ---------------------------------------------------------------------------

  /** Each element's class set, in document order. */
  type Document = seq<set<string>>

  /** The classes of the `querySelectorAll` selector list. */
  const ObservedSelector: set<string> :=
    {"scroll-reveal", "scroll-reveal-left", "scroll-reveal-right", "scroll-reveal-scale"}

  /** An element matches the selector list when it carries any of its
      classes. */
  predicate IsObserved(classes: set<string>) {
    classes * ObservedSelector != {}
  }

  /** `querySelectorAll(...)`: the matching elements, in document order. */
  method ObservedElements(doc: Document) returns (targets: seq<nat>)
    ensures forall i :: i in targets <==> 0 <= i < |doc| && IsObserved(doc[i])
    ensures forall a, b :: 0 <= a < b < |targets| ==> targets[a] < targets[b]
  {
    targets := [];
    var i := 0;
    while i < |doc|
      invariant 0 <= i <= |doc|
      invariant forall j :: j in targets <==> 0 <= j < i && IsObserved(doc[j])
      invariant forall a, b :: 0 <= a < b < |targets| ==> targets[a] < targets[b]
      invariant forall a :: 0 <= a < |targets| ==> targets[a] < i
    {
      if doc[i] * ObservedSelector != {} {
        targets := targets + [i];
      }
      i := i + 1;
    }
  }

  // ---------------------------------------------------------------------------
  // The observer callback
  // ---------------------------------------------------------------------------

  /** One `IntersectionObserverEntry`: the element and whether it intersects. */
  datatype Entry = Entry(target: nat, isIntersecting: bool)

  /** Every entry names an element of a document with `n` elements. */
  predicate TargetsBelow(n: nat, entries: seq<Entry>) {
    forall k :: 0 <= k < |entries| ==> entries[k].target < n
  }

  /** Some entry reports element `i` as intersecting. */
  predicate Intersects(entries: seq<Entry>, i: nat) {
    exists k :: 0 <= k < |entries| && entries[k].target == i && entries[k].isIntersecting
  }

  /** The body of the forEach for one entry. */
  function ApplyEntry(doc: Document, e: Entry): Document
    requires e.target < |doc|
  {
    if e.isIntersecting then doc[e.target := Add(doc[e.target], Revealed)] else doc
  }

  lemma IntersectsCons(entries: seq<Entry>, i: nat)
    requires |entries| > 0
    ensures Intersects(entries, i) <==>
              (entries[0].target == i && entries[0].isIntersecting) || Intersects(entries[1..], i)
  {
    if Intersects(entries, i) && !(entries[0].target == i && entries[0].isIntersecting) {
      var k :| 0 <= k < |entries| && entries[k].target == i && entries[k].isIntersecting;
      assert entries[1..][k - 1] == entries[k];
    }
    if Intersects(entries[1..], i) {
      var k :| 0 <= k < |entries[1..]| && entries[1..][k].target == i && entries[1..][k].isIntersecting;
      assert entries[k + 1] == entries[1..][k];
    }
  }

  /** The observer callback: every element some entry reports as intersecting
      gains "revealed"; every other element keeps exactly its classes. */
  function ObserverCallback(doc: Document, entries: seq<Entry>): (d: Document)
    requires TargetsBelow(|doc|, entries)
    ensures |d| == |doc|
    ensures forall i :: 0 <= i < |doc| ==>
              d[i] == (if Intersects(entries, i) then Add(doc[i], Revealed) else doc[i])
    decreases |entries|
  {
    if |entries| == 0 then doc
    else
      var rest := entries[1..];
      assert TargetsBelow(|doc|, rest) by {
        forall k | 0 <= k < |rest| ensures rest[k].target < |doc| {
          assert rest[k] == entries[k + 1];
        }
      }
      IntersectsAll(entries);
      ObserverCallback(ApplyEntry(doc, entries[0]), rest)
  }

  lemma IntersectsAll(entries: seq<Entry>)
    requires |entries| > 0
    ensures forall i: nat :: Intersects(entries, i) <==>
              (entries[0].target == i && entries[0].isIntersecting) || Intersects(entries[1..], i)
  {
    forall i: nat
      ensures Intersects(entries, i) <==>
                (entries[0].target == i && entries[0].isIntersecting) || Intersects(entries[1..], i)
    {
      IntersectsCons(entries, i);
    }
  }

  /** Entries that do not intersect leave the whole document as it was. */
  lemma NonIntersectingChangesNothing(doc: Document, entries: seq<Entry>)
    requires TargetsBelow(|doc|, entries)
    requires forall k :: 0 <= k < |entries| ==> !entries[k].isIntersecting
    ensures ObserverCallback(doc, entries) == doc
  {
    var d := ObserverCallback(doc, entries);
    forall i | 0 <= i < |doc| ensures d[i] == doc[i] {
      assert !Intersects(entries, i);
    }
  }

  /** The callback only ever adds "revealed": no class is removed, and no
      other class appears. */
  lemma CallbackOnlyReveals(doc: Document, entries: seq<Entry>)
    requires TargetsBelow(|doc|, entries)
    ensures forall i :: 0 <= i < |doc| ==>
              doc[i] <= ObserverCallback(doc, entries)[i] &&
              ObserverCallback(doc, entries)[i] - doc[i] <= {Revealed}
  {
  }

  /** Delivering the same entries again changes nothing. */
  lemma CallbackIdempotent(doc: Document, entries: seq<Entry>)
    requires TargetsBelow(|doc|, entries)
    ensures ObserverCallback(ObserverCallback(doc, entries), entries) == ObserverCallback(doc, entries)
  {
    var d := ObserverCallback(doc, entries);
    var dd := ObserverCallback(d, entries);
    forall i | 0 <= i < |doc| ensures dd[i] == d[i] {
      AddIdempotent(doc[i], Revealed);
    }
  }

  /** When the observer reports only observed elements, an element the
      selector list does not match keeps its classes. */
  lemma UnobservedUntouched(doc: Document, entries: seq<Entry>, i: nat)
    requires TargetsBelow(|doc|, entries)
    requires forall k :: 0 <= k < |entries| ==> IsObserved(doc[entries[k].target])
    requires i < |doc| && !IsObserved(doc[i])
    ensures ObserverCallback(doc, entries)[i] == doc[i]
  {
    assert !Intersects(entries, i);
  }

  // ---------------------------------------------------------------------------
  // A sequence of callbacks
  // ---------------------------------------------------------------------------

  /** Every batch names elements of a document with `n` elements. */
  predicate BatchesBelow(n: nat, batches: seq<seq<Entry>>) {
    forall b :: 0 <= b < |batches| ==> TargetsBelow(n, batches[b])
  }

  /** The document after the observer has delivered `batches` in order. */
  function Deliver(doc: Document, batches: seq<seq<Entry>>): (d: Document)
    requires BatchesBelow(|doc|, batches)
    ensures |d| == |doc|
    decreases |batches|
  {
    if |batches| == 0 then doc
    else
      assert TargetsBelow(|doc|, batches[0]);
      assert BatchesBelow(|doc|, batches[1..]) by {
        forall b | 0 <= b < |batches[1..]| ensures TargetsBelow(|doc|, batches[1..][b]) {
          assert batches[1..][b] == batches[b + 1];
        }
      }
      Deliver(ObserverCallback(doc, batches[0]), batches[1..])
  }

  /** Some batch reports element `i` as intersecting. */
  predicate EverIntersects(batches: seq<seq<Entry>>, i: nat) {
    exists b :: 0 <= b < |batches| && Intersects(batches[b], i)
  }

  /** Across any sequence of callbacks an element's classes only grow, and it
      carries "revealed" at the end exactly when it did at the start or some
      callback reported it intersecting: once revealed, always revealed. */
  lemma {:induction false} RevealedOnlyGrows(doc: Document, batches: seq<seq<Entry>>, i: nat)
    requires BatchesBelow(|doc|, batches)
    requires i < |doc|
    ensures doc[i] <= Deliver(doc, batches)[i]
    ensures Deliver(doc, batches)[i] - doc[i] <= {Revealed}
    ensures Revealed in Deliver(doc, batches)[i] <==> Revealed in doc[i] || EverIntersects(batches, i)
    decreases |batches|
  {
    if |batches| > 0 {
      var rest := batches[1..];
      assert BatchesBelow(|doc|, rest) by {
        forall b | 0 <= b < |rest| ensures TargetsBelow(|doc|, rest[b]) {
          assert rest[b] == batches[b + 1];
        }
      }
      var d1 := ObserverCallback(doc, batches[0]);
      RevealedOnlyGrows(d1, rest, i);
      if EverIntersects(batches, i) && !Intersects(batches[0], i) {
        var b :| 0 <= b < |batches| && Intersects(batches[b], i);
        assert rest[b - 1] == batches[b];
      }
      if EverIntersects(rest, i) {
        var b :| 0 <= b < |rest| && Intersects(rest[b], i);
        assert batches[b + 1] == rest[b];
      }
    }
  }

  // ---------------------------------------------------------------------------
  // Pointer and scroll offsets
  // ---------------------------------------------------------------------------

  /** The pointer position and scroll offset the hero keeps in its state. */
  datatype HeroState = HeroState(mouseX: real, mouseY: real, scrollY: real)

  /** Pointer at the origin, page at the top. */
  const Initial: HeroState := HeroState(0.0, 0.0, 0.0)

  datatype HeroEvent =
    | MouseMove(clientX: real, clientY: real)
    | WindowScroll(pageY: real)

  function Step(s: HeroState, e: HeroEvent): HeroState {
    match e
    case MouseMove(x, y) => s.(mouseX := x, mouseY := y)
    case WindowScroll(y) => s.(scrollY := y)
  }

  /** The background's vertical drift: a tenth of the scroll offset. */
  function BackgroundOffset(s: HeroState): (dy: real)
    ensures s.scrollY >= 0.0 ==> 0.0 <= dy <= s.scrollY
    ensures s.scrollY == 0.0 ==> dy == 0.0
  {
    s.scrollY * 0.1
  }

  /** A 2-D translation in pixels. */
  datatype Offset = Offset(dx: real, dy: real)

  /** The pointer factors of the three floating squares, in render order. */
  const FloatingFactors: seq<Offset> :=
    [Offset(0.01, 0.01), Offset(-0.005, 0.005), Offset(0.008, -0.008)]

  /** Each square's translation: the pointer position scaled by its factors. */
  function FloatingOffsets(s: HeroState): (offsets: seq<Offset>)
    ensures |offsets| == |FloatingFactors|
    ensures forall k :: 0 <= k < |offsets| ==>
              offsets[k] == Offset(s.mouseX * FloatingFactors[k].dx, s.mouseY * FloatingFactors[k].dy)
  {
    [Offset(s.mouseX * 0.01, s.mouseY * 0.01),
     Offset(s.mouseX * -0.005, s.mouseY * 0.005),
     Offset(s.mouseX * 0.008, s.mouseY * -0.008)]
  }

  /** The offsets are linear in the pointer: those for a sum of positions are
      the sums of the offsets, and a pointer at the origin moves nothing. */
  lemma FloatingOffsetsLinear(s: HeroState, t: HeroState)
    ensures forall k :: 0 <= k < |FloatingFactors| ==>
              FloatingOffsets(HeroState(s.mouseX + t.mouseX, s.mouseY + t.mouseY, 0.0))[k] ==
              Offset(FloatingOffsets(s)[k].dx + FloatingOffsets(t)[k].dx,
                     FloatingOffsets(s)[k].dy + FloatingOffsets(t)[k].dy)
    ensures forall k :: 0 <= k < |FloatingFactors| ==>
              FloatingOffsets(s.(mouseX := 0.0, mouseY := 0.0))[k] == Offset(0.0, 0.0)
  {
  }

  /** The first square follows the pointer, the second moves against it
      horizontally, the third against it vertically. */
  lemma FloatingDirections(s: HeroState)
    requires s.mouseX > 0.0 && s.mouseY > 0.0
    ensures FloatingOffsets(s)[0].dx > 0.0 && FloatingOffsets(s)[0].dy > 0.0
    ensures FloatingOffsets(s)[1].dx < 0.0 && FloatingOffsets(s)[1].dy > 0.0
    ensures FloatingOffsets(s)[2].dx > 0.0 && FloatingOffsets(s)[2].dy < 0.0
  {
  }

  /** Before any event the background is in place ... */
  lemma InitialBackgroundAtRest()
    ensures BackgroundOffset(Initial) == 0.0
  {
  }

  /** ... and so are the floating squares. */
  lemma InitialSquaresAtRest()
    ensures forall k :: 0 <= k < |FloatingFactors| ==> FloatingOffsets(Initial)[k] == Offset(0.0, 0.0)
  {
    var o := FloatingOffsets(Initial);
    forall k | 0 <= k < |FloatingFactors| ensures o[k] == Offset(0.0, 0.0) {
      assert o[k] == Offset(0.0 * FloatingFactors[k].dx, 0.0 * FloatingFactors[k].dy);
    }
  }

  /** A scroll moves only the background, to a tenth of the new offset. */
  lemma ScrollMovesBackgroundOnly(s: HeroState, scrollY: real)
    ensures FloatingOffsets(Step(s, WindowScroll(scrollY))) == FloatingOffsets(s)
    ensures BackgroundOffset(Step(s, WindowScroll(scrollY))) == scrollY * 0.1
  {
    assert Step(s, WindowScroll(scrollY)).mouseX == s.mouseX;
    assert Step(s, WindowScroll(scrollY)).mouseY == s.mouseY;
  }

  /** A pointer move moves only the squares, to offsets of the new position. */
  lemma PointerMovesSquaresOnly(s: HeroState, x: real, y: real)
    ensures BackgroundOffset(Step(s, MouseMove(x, y))) == BackgroundOffset(s)
    ensures FloatingOffsets(Step(s, MouseMove(x, y)))[0] == Offset(x * 0.01, y * 0.01)
    ensures FloatingOffsets(Step(s, MouseMove(x, y))) == FloatingOffsets(HeroState(x, y, s.scrollY))
    ensures forall k :: 0 <= k < |FloatingFactors| ==>
              FloatingOffsets(Step(s, MouseMove(x, y)))[k] ==
              Offset(x * FloatingFactors[k].dx, y * FloatingFactors[k].dy)
  {
    assert Step(s, MouseMove(x, y)).scrollY == s.scrollY;
  }
}

=== FILE: navigation.dfy ===
/** The fixed top navigation bar (components/navigation.tsx).

    The bar turns opaque once the window has scrolled more than 50 pixels, and
    on small screens a menu button opens and closes a drop-down list of the
    same links; following one of those links closes the list again.

    The window's scroll offset is an input; listener registration is not
    modelled. */
module Navigation {
  import opened Wrappers

  // ---------------------------------------------------------------------------
  // The links
  // ---------------------------------------------------------------------------

  /** An entry of `navItems`: the label shown and the link target. */
  datatype NavItem = NavItem(name: string, href: string)

  /** `navItems`, in display order. */
  const NavItems: seq<NavItem> := [
    NavItem("Services", "#services"),
    NavItem("About", "#about"),
    NavItem("Work", "/work"),
    NavItem("Contact", "#contact")
  ]

  /** A target that leaves the page for another route. */
  predicate IsRoute(href: string) {
    |href| > 0 && href[0] == '/'
  }

  /** A target that stays on the page and scrolls to a section. */
  predicate IsFragment(href: string) {
    |href| > 0 && href[0] == '#'
  }

  /** ASCII lower case, enough for the labels. */
  function LowerChar(c: char): (l: char)
    ensures 'A' <= c <= 'Z' ==> 'a' <= l <= 'z'
    ensures !('A' <= c <= 'Z') ==> l == c
  {
    if 'A' <= c <= 'Z' then (c as int - 'A' as int + 'a' as int) as char else c
  }

  function Lower(s: string): (l: string)
    ensures |l| == |s|
    ensures forall i :: 0 <= i < |s| ==> l[i] == LowerChar(s[i])
  {
    seq(|s|, i requires 0 <= i < |s| => LowerChar(s[i]))
  }

  /** The four links in order; only "Work" routes away (to "/work"), and every
      other link is the fragment naming its own section, the label in lower
      case. */
  lemma NavItemsTable()
    ensures |NavItems| == 4
    ensures NavItems[0].name == "Services" && NavItems[1].name == "About"
    ensures NavItems[2].name == "Work" && NavItems[3].name == "Contact"
    ensures forall i :: 0 <= i < |NavItems| ==> (IsRoute(NavItems[i].href) <==> NavItems[i].name == "Work")
    ensures forall i :: 0 <= i < |NavItems| ==> (IsFragment(NavItems[i].href) <==> !IsRoute(NavItems[i].href))
    ensures forall i :: 0 <= i < |NavItems| && IsFragment(NavItems[i].href) ==>
              NavItems[i].href == "#" + Lower(NavItems[i].name)
    ensures NavItems[2].href == "/work"
  {
    assert "#" + Lower("Services") == "#services";
    assert "#" + Lower("About") == "#about";
    assert "#" + Lower("Contact") == "#contact";
  }

  /** The staggered entrance of the links: link `index` starts `index * 0.1`
      seconds late, so later links start strictly later. */
  function AnimationDelay(index: nat): (seconds: real)
    ensures seconds >= 0.0
    ensures index == 0 ==> seconds == 0.0
  {
    index as real * 0.1
  }

  lemma LaterLinksStartLater(i: nat, j: nat)
    requires i < j
    ensures AnimationDelay(i) < AnimationDelay(j)
  {
  }

  // ---------------------------------------------------------------------------
  // The bar's state
  // ---------------------------------------------------------------------------

  /** How far the page must scroll before the bar turns opaque. */
  const ScrollThreshold: real := 50.0

  /** `handleScroll`'s test: strictly past the threshold. */
  function IsScrolledAt(scrollY: real): bool {
    scrollY > ScrollThreshold
  }

  /** The two state variables of the component. */
  datatype NavState = NavState(isScrolled: bool, mobileMenuOpen: bool)

  /** Both start false: a transparent bar, the menu closed. */
  const Initial: NavState := NavState(false, false)

  datatype NavEvent =
    | WindowScroll(scrollY: real)   // the window's scroll listener
    | MenuButton                    // the mobile menu button
    | LinkClicked                   // a link in the mobile menu

  function Step(s: NavState, e: NavEvent): NavState {
    match e
    case WindowScroll(y) => s.(isScrolled := IsScrolledAt(y))
    case MenuButton => s.(mobileMenuOpen := !s.mobileMenuOpen)
    case LinkClicked => s.(mobileMenuOpen := false)
  }

  function Run(s: NavState, events: seq<NavEvent>): NavState
    decreases |events|
  {
    if |events| == 0 then s else Run(Step(s, events[0]), events[1..])
  }

  /** Scrolling measures the offset strictly: exactly 50 pixels still counts as
      the top of the page. The menu is not affected. */
  lemma ScrollThresholdIsStrict(s: NavState, scrollY: real)
    ensures Step(s, WindowScroll(scrollY)).isScrolled <==> scrollY > 50.0
    ensures !Step(s, WindowScroll(50.0)).isScrolled
    ensures Step(s, WindowScroll(scrollY)).mobileMenuOpen == s.mobileMenuOpen
  {
  }

  /** The menu button flips the menu, so pressing it twice changes nothing. */
  lemma ToggleTwiceRestores(s: NavState)
    ensures Step(s, MenuButton).mobileMenuOpen != s.mobileMenuOpen
    ensures Step(s, MenuButton).isScrolled == s.isScrolled
    ensures Step(Step(s, MenuButton), MenuButton) == s
  {
  }

  /** Following a mobile link closes the menu whatever its state. */
  lemma LinkClickCloses(s: NavState)
    ensures !Step(s, LinkClicked).mobileMenuOpen
    ensures Step(s, LinkClicked).isScrolled == s.isScrolled
    ensures Step(Step(s, LinkClicked), LinkClicked) == Step(s, LinkClicked)
  {
  }

  /** The offset of the last scroll event in `events`, if there is one. */
  function LastScroll(events: seq<NavEvent>): Option<real>
    decreases |events|
  {
    if |events| == 0 then None
    else if events[|events| - 1].WindowScroll? then Some(events[|events| - 1].scrollY)
    else LastScroll(events[..|events| - 1])
  }

  /** The number of menu-button presses in `events`. */
  function Presses(events: seq<NavEvent>): nat
    decreases |events|
  {
    if |events| == 0 then 0
    else (if events[|events| - 1].MenuButton? then 1 else 0) + Presses(events[..|events| - 1])
  }

  /** `Run` on a sequence with one more event at the end. */
  lemma {:induction false} RunSnoc(s: NavState, events: seq<NavEvent>, e: NavEvent)
    ensures Run(s, events + [e]) == Step(Run(s, events), e)
    decreases |events|
  {
    if |events| > 0 {
      assert (events + [e])[1..] == events[1..] + [e];
      RunSnoc(Step(s, events[0]), events[1..], e);
    }
  }

  /** Whether the bar is opaque is decided by the last scroll offset alone
      (and is the initial value when nothing has scrolled). */
  lemma {:induction false} ScrolledFollowsLastScroll(s: NavState, events: seq<NavEvent>)
    ensures Run(s, events).isScrolled ==
              (match LastScroll(events)
               case None => s.isScrolled
               case Some(y) => y > ScrollThreshold)
    decreases |events|
  {
    if |events| > 0 {
      var init := events[..|events| - 1];
      assert events == init + [events[|events| - 1]];
      RunSnoc(s, init, events[|events| - 1]);
      ScrolledFollowsLastScroll(s, init);
    }
  }

  /** Without link clicks the menu is open exactly when it started open and
      the button was pressed an even number of times, or it started closed
      and was pressed an odd number of times. */
  lemma {:induction false} MenuParity(s: NavState, events: seq<NavEvent>)
    requires forall k :: 0 <= k < |events| ==> !events[k].LinkClicked?
    ensures Run(s, events).mobileMenuOpen == (s.mobileMenuOpen != (Presses(events) % 2 == 1))
    decreases |events|
  {
    if |events| > 0 {
      var init := events[..|events| - 1];
      assert events == init + [events[|events| - 1]];
      RunSnoc(s, init, events[|events| - 1]);
      MenuParity(s, init);
    }
  }

  /** After a link click the menu is closed and stays closed until the button
      is pressed. */
  lemma {:induction false} ClosedUntilPressed(s: NavState, events: seq<NavEvent>)
    requires forall k :: 0 <= k < |events| ==> !events[k].MenuButton?
    ensures !Run(Step(s, LinkClicked), events).mobileMenuOpen
    decreases |events|
  {
    if |events| > 0 {
      var init := events[..|events| - 1];
      assert events == init + [events[|events| - 1]];
      RunSnoc(Step(s, LinkClicked), init, events[|events| - 1]);
      ClosedUntilPressed(s, init);
    }
  }

  // ---------------------------------------------------------------------------
  // What is rendered
  // ---------------------------------------------------------------------------

  const BaseClass: string := "fixed top-0 w-full z-50 transition-all duration-500 "
  const OpaqueBackground: string := "bg-black/80 backdrop-blur-md"
  const TransparentBackground: string := "bg-transparent"

  /** The bar's class: fixed layout, then the background the scroll state
      selects. */
  function NavClass(s: NavState): (cls: string)
    ensures |BaseClass| <= |cls| && cls[..|BaseClass|] == BaseClass
  {
    BaseClass + (if s.isScrolled then OpaqueBackground else TransparentBackground)
  }

  /** The class depends on the scroll state and on nothing else: two states
      render the same bar exactly when they agree on `isScrolled`. */
  lemma NavClassReflectsScroll(s: NavState, t: NavState)
    ensures NavClass(s) == NavClass(t) <==> s.isScrolled == t.isScrolled
  {
    assert NavClass(s)[|BaseClass|..] == (if s.isScrolled then OpaqueBackground else TransparentBackground);
    assert NavClass(t)[|BaseClass|..] == (if t.isScrolled then OpaqueBackground else TransparentBackground);
  }

  /** The drop-down list is rendered exactly while the menu is open, and the
      button then shows the close icon. */
  function ShowsMobileNav(s: NavState): bool {
    s.mobileMenuOpen
  }

  datatype MenuIcon = MenuGlyph | CloseGlyph

  function ButtonIcon(s: NavState): (icon: MenuIcon)
    ensures icon == CloseGlyph <==> ShowsMobileNav(s)
  {
    if s.mobileMenuOpen then CloseGlyph else MenuGlyph
  }

  /** From the initial state the list is hidden behind the menu icon; one
      press shows it and turns the button into the close icon, a link click
      hides it again and brings the menu icon back. */
  lemma MenuRoundTrip()
    ensures !ShowsMobileNav(Initial) && ButtonIcon(Initial) == MenuGlyph
    ensures ShowsMobileNav(Step(Initial, MenuButton)) && ButtonIcon(Step(Initial, MenuButton)) == CloseGlyph
    ensures !ShowsMobileNav(Step(Step(Initial, MenuButton), LinkClicked))
    ensures ButtonIcon(Step(Step(Initial, MenuButton), LinkClicked)) == MenuGlyph
    ensures Step(Step(Initial, MenuButton), LinkClicked) == Initial
  {
  }
}

=== FILE: particle_field.dfy ===
/** The particle backdrop of the hero (components/particles-background.tsx).

    A canvas the size of the window holds a number of particles proportional
    to its area. Every frame, pairs of nearby particles are joined by lines
    that fade with the square of their distance, particles near the pointer
    are joined to it by lines that fade linearly, and every particle moves by
    its velocity, bouncing off the canvas edges. A resize regenerates the
    whole field.

    `Math.random()` results are inputs (each in [0, 1)); distances, which the
    source gets from `Math.sqrt`, are given as non-negative inputs; drawing
    itself is not modelled, only what is drawn and with which opacity.
    The canvas is styled `pointer-events-none`, so as written it never sees a
    pointer move; `Step` models the evidently intended delivery and
    `StepAsWritten` the code as it stands. */
module ParticleField {
  import opened Wrappers
  import opened RealOrder

  // ---------------------------------------------------------------------------
  // Particles and their creation
  // ---------------------------------------------------------------------------

  datatype Particle = Particle(x: real, y: real, vx: real, vy: real, size: real, opacity: real)

  /** The six `Math.random()` results one particle consumes, in the order
      its object literal evaluates them. */
  datatype Draws = Draws(x: real, y: real, vx: real, vy: real, size: real, opacity: real)

  predicate Unit(r: real) {
    0.0 <= r < 1.0
  }

  predicate ValidDraws(d: Draws) {
    Unit(d.x) && Unit(d.y) && Unit(d.vx) && Unit(d.vy) && Unit(d.size) && Unit(d.opacity)
  }

  /** Canvas area per particle, in square pixels. */
  const AreaPerParticle: nat := 8000

  /** `Math.floor(width * height / 8000)`: the largest count whose particles
      each have 8000 square pixels, so 0 on a canvas smaller than that. */
  function ParticleCount(width: nat, height: nat): (n: nat)
    ensures n * AreaPerParticle <= width * height < (n + 1) * AreaPerParticle
    ensures width * height < AreaPerParticle <==> n == 0
  {
    (width * height) / AreaPerParticle
  }

  /** A particle created from its random draws on a `width` x `height`
      canvas. */
  function NewParticle(width: nat, height: nat, d: Draws): (p: Particle)
    ensures ValidDraws(d) && width > 0 && height > 0 ==> Fresh(p, width, height)
  {
    Particle(Place(d.x, width), Place(d.y, height), (d.vx - 0.5) * 1.5, (d.vy - 0.5) * 1.5,
             d.size * 1.5 + 0.5, d.opacity * 0.4 + 0.3)
  }

  /** `Math.random() * length`: a draw in [0, 1) lands in [0, length). */
  function Place(r: real, length: nat): (v: real)
    ensures Unit(r) && length > 0 ==> 0.0 <= v < length as real
  {
    var v := r * length as real;
    if Unit(r) && length > 0 then UnitScale(r, length as real); v else v
  }

  /** A number in [0, 1) times a positive length lies in [0, length). */
  lemma UnitScale(r: real, len: real)
    requires Unit(r) && 0.0 < len
    ensures 0.0 <= r * len < len
  {
    ScaleMonotone(0.0, r, len);
    assert len - r * len == (1.0 - r) * len;
    assert (1.0 - r) * len > 0.0;
  }

  /** The ranges a newly created particle lies in: strictly inside the
      canvas, each velocity component in [-0.75, 0.75), radius in [0.5, 2)
      and opacity in [0.3, 0.7). */
  predicate Fresh(p: Particle, width: nat, height: nat) {
    && 0.0 <= p.x < width as real
    && 0.0 <= p.y < height as real
    && -0.75 <= p.vx < 0.75
    && -0.75 <= p.vy < 0.75
    && 0.5 <= p.size < 2.0
    && 0.3 <= p.opacity < 0.7
  }

  /** `createParticles()`: the old array is dropped and exactly
      `ParticleCount` new particles are made, the i-th from the i-th draws.
      With valid draws every one of them is fresh (a non-empty field implies a
      canvas of positive width and height). */
  function CreateParticles(width: nat, height: nat, draws: seq<Draws>): (ps: seq<Particle>)
    requires ParticleCount(width, height) <= |draws|
    ensures |ps| == ParticleCount(width, height)
    ensures forall i :: 0 <= i < |ps| ==> ps[i] == NewParticle(width, height, draws[i])
    ensures (forall i :: 0 <= i < |draws| ==> ValidDraws(draws[i])) ==>
              forall i :: 0 <= i < |ps| ==> Fresh(ps[i], width, height)
  {
    var n := ParticleCount(width, height);
    PositiveCountNeedsPositiveSides(width, height);
    seq(n, i requires 0 <= i < n => NewParticle(width, height, draws[i]))
  }

  /** A canvas that holds a particle has both sides positive. */
  lemma PositiveCountNeedsPositiveSides(width: nat, height: nat)
    ensures ParticleCount(width, height) > 0 ==> width > 0 && height > 0
  {
    if width == 0 || height == 0 {
      assert width * height == 0;
    }
  }

  // ---------------------------------------------------------------------------
  // Motion
  // ---------------------------------------------------------------------------

  function Abs(r: real): real {
    if r < 0.0 then -r else r
  }

  /** Within the closed canvas, edges included. */
  predicate InCanvas(p: Particle, width: nat, height: nat) {
    0.0 <= p.x <= width as real && 0.0 <= p.y <= height as real
  }

  /** `Math.max(0, Math.min(limit, v))`. */
  function Confine(v: real, limit: real): real {
    if v < 0.0 then 0.0 else if v > limit then limit else v
  }

  /** `updateParticle`: move by the velocity; a component whose new
      coordinate left the canvas is reversed and the coordinate is put back on
      the edge. From any starting state the particle ends inside the canvas,
      each speed keeps its magnitude, a bounce off an edge the particle started
      inside of sends it back inwards, and radius and opacity are untouched. */
  function UpdateParticle(p: Particle, width: nat, height: nat): (q: Particle)
    ensures InCanvas(q, width, height)
    ensures 0.0 <= p.x + p.vx <= width as real ==> q.vx == p.vx && q.x == p.x + p.vx
    ensures !(0.0 <= p.x + p.vx <= width as real) ==> q.vx == -p.vx && (q.x == 0.0 || q.x == width as real)
    ensures 0.0 <= p.y + p.vy <= height as real ==> q.vy == p.vy && q.y == p.y + p.vy
    ensures !(0.0 <= p.y + p.vy <= height as real) ==> q.vy == -p.vy && (q.y == 0.0 || q.y == height as real)
    ensures Abs(q.vx) == Abs(p.vx) && Abs(q.vy) == Abs(p.vy)
    ensures 0.0 <= p.x && p.x + p.vx < 0.0 ==> q.vx > 0.0
    ensures p.x <= width as real && p.x + p.vx > width as real ==> q.vx < 0.0
    ensures 0.0 <= p.y && p.y + p.vy < 0.0 ==> q.vy > 0.0
    ensures p.y <= height as real && p.y + p.vy > height as real ==> q.vy < 0.0
    ensures q.size == p.size && q.opacity == p.opacity
  {
    var x := p.x + p.vx;
    var y := p.y + p.vy;
    var vx := if x < 0.0 || x > width as real then -p.vx else p.vx;
    var vy := if y < 0.0 || y > height as real then -p.vy else p.vy;
    p.(x := Confine(x, width as real), y := Confine(y, height as real), vx := vx, vy := vy)
  }

  /** The update step of `animate`: every particle moves, none is added or
      removed, and order is kept. Afterwards every particle is inside the
      canvas, and a particle that was settled still is. */
  function StepAll(ps: seq<Particle>, width: nat, height: nat): (qs: seq<Particle>)
    ensures |qs| == |ps|
    ensures forall i :: 0 <= i < |qs| ==> qs[i] == UpdateParticle(ps[i], width, height)
    ensures forall i :: 0 <= i < |qs| ==> InCanvas(qs[i], width, height)
    ensures forall i :: 0 <= i < |qs| && Settled(ps[i]) ==> Settled(qs[i])
  {
    seq(|ps|, i requires 0 <= i < |ps| => UpdateParticle(ps[i], width, height))
  }

  /** What stays true of a particle for its whole life: speeds within 0.75,
      radius in [0.5, 2), opacity in [0.3, 0.7). */
  predicate Settled(p: Particle) {
    && Abs(p.vx) <= 0.75
    && Abs(p.vy) <= 0.75
    && 0.5 <= p.size < 2.0
    && 0.3 <= p.opacity < 0.7
  }

  /** A fresh particle is settled, and updates keep it so. */
  lemma SettledPreserved(p: Particle, width: nat, height: nat, w0: nat, h0: nat)
    ensures Fresh(p, w0, h0) ==> Settled(p)
    ensures Settled(p) ==> Settled(UpdateParticle(p, width, height))
  {
  }

  // ---------------------------------------------------------------------------
  // Lines
  // ---------------------------------------------------------------------------

  const ConnectionRange: real := 150.0
  const PointerRange: real := 200.0

  /** Between two particles at distance `d` a line is drawn only below 150px,
      with opacity `(1 - d/150)^2 * 0.4`, 0.4 when the particles coincide
      (its range and its fall-off are the two lemmas below). */
  function ConnectionOpacity(d: real): (opacity: Option<real>)
    requires 0.0 <= d
    ensures opacity.Some? <==> d < ConnectionRange
    ensures d == 0.0 ==> opacity == Some(0.4)
  {
    if d < ConnectionRange then
      var u := Closeness(d, ConnectionRange);
      Some(u * u * 0.4)
    else
      None
  }

  /** `1 - d / range`: 1 at distance 0, falling to 0 at the range. */
  function Closeness(d: real, range: real): (u: real)
    requires 0.0 < range
    ensures 0.0 <= d < range ==> 0.0 < u <= 1.0
  {
    QuotientBelowOne(d, range);
    1.0 - d / range
  }

  lemma QuotientBelowOne(d: real, range: real)
    requires 0.0 < range
    ensures 0.0 <= d < range ==> 0.0 <= d / range < 1.0
  {
    if 0.0 <= d < range && d / range >= 1.0 {
      ScaleMonotone(1.0, d / range, range);
    }
  }

  /** A drawn connection line is never invisible and never above 0.4. */
  lemma ConnectionOpacityRange(d: real)
    requires 0.0 <= d < ConnectionRange
    ensures 0.0 < ConnectionOpacity(d).value <= 0.4
  {
    var u := Closeness(d, ConnectionRange);
    calc {
      ConnectionOpacity(d).value;
      u * u * 0.4;
    <= { ScaleMonotone(u, 1.0, u); }
      u * 0.4;
    <= 0.4;
    }
    calc {
      ConnectionOpacity(d).value;
      u * u * 0.4;
    > 0.0;
    }
  }

  /** Connection lines fade as particles move apart. */
  lemma ConnectionFades(d1: real, d2: real)
    requires 0.0 <= d1 <= d2 < ConnectionRange
    ensures ConnectionOpacity(d2).value <= ConnectionOpacity(d1).value
  {
    var u1 := Closeness(d1, ConnectionRange);
    var u2 := Closeness(d2, ConnectionRange);
    assert d1 / ConnectionRange <= d2 / ConnectionRange;
    calc {
      ConnectionOpacity(d2).value;
      u2 * u2 * 0.4;
    <= { ScaleMonotone(u2, u1, u2); ScaleMonotone(u2, u1, u1); }
      u1 * u1 * 0.4;
      ConnectionOpacity(d1).value;
    }
  }

  /** Between a particle and the pointer at distance `d` a line is drawn
      only below 200px, with opacity `(1 - d/200) * 0.3`: positive and at most
      0.3. */
  function PointerOpacity(d: real): (opacity: Option<real>)
    requires 0.0 <= d
    ensures opacity.Some? <==> d < PointerRange
    ensures opacity.Some? ==> 0.0 < opacity.value <= 0.3
    ensures d == 0.0 ==> opacity == Some(0.3)
  {
    if d < PointerRange then Some((1.0 - d / PointerRange) * 0.3) else None
  }

  /** Pointer lines fade as the particle moves away from the pointer. */
  lemma PointerFades(d1: real, d2: real)
    requires 0.0 <= d1 <= d2 < PointerRange
    ensures PointerOpacity(d2).value <= PointerOpacity(d1).value
  {
  }

  /** Lexicographic order on index pairs, the order the nested loop visits them. */
  predicate Precedes(p: (nat, nat), q: (nat, nat)) {
    p.0 < q.0 || (p.0 == q.0 && p.1 < q.1)
  }

  /** The pairs `animate`'s nested loop (`i` from 0, `j` from `i + 1`)
      visits for `n` particles: every unordered pair of distinct particles,
      each exactly once (the sequence is strictly increasing), and never a
      particle with itself. */
  method ConnectionPairs(n: nat) returns (pairs: seq<(nat, nat)>)
    ensures forall k :: 0 <= k < |pairs| ==> pairs[k].0 < pairs[k].1 < n
    ensures forall i, j :: 0 <= i < j < n ==> (i, j) in pairs
    ensures forall a, b :: 0 <= a < b < |pairs| ==> Precedes(pairs[a], pairs[b])
    ensures forall a, b :: 0 <= a < b < |pairs| ==> pairs[a] != pairs[b]
  {
    pairs := [];
    var i := 0;
    while i < n
      invariant 0 <= i <= n
      invariant forall k :: 0 <= k < |pairs| ==> pairs[k].0 < pairs[k].1 < n && pairs[k].0 < i
      invariant forall p, q :: 0 <= p < q < n && p < i ==> (p, q) in pairs
      invariant forall a, b :: 0 <= a < b < |pairs| ==> Precedes(pairs[a], pairs[b])
    {
      var j := i + 1;
      while j < n
        invariant i + 1 <= j <= n
        invariant forall k :: 0 <= k < |pairs| ==>
                    pairs[k].0 < pairs[k].1 < n && Precedes(pairs[k], (i, j))
        invariant forall p, q :: 0 <= p < q < n && Precedes((p, q), (i, j)) ==> (p, q) in pairs
        invariant forall a, b :: 0 <= a < b < |pairs| ==> Precedes(pairs[a], pairs[b])
      {
        pairs := pairs + [(i, j)];
        j := j + 1;
      }
      i := i + 1;
    }
  }

  // ---------------------------------------------------------------------------
  // The field over time
  // ---------------------------------------------------------------------------

  datatype Point = Point(x: real, y: real)

  /** `handleMouseMove`: the pointer in canvas coordinates, i.e. relative to
      the canvas's bounding box. */
  function CanvasPointer(clientX: real, clientY: real, rectLeft: real, rectTop: real): (m: Point)
    ensures m.x + rectLeft == clientX && m.y + rectTop == clientY
  {
    Point(clientX - rectLeft, clientY - rectTop)
  }

  /** The canvas size, its particles and the last pointer position. */
  datatype Field = Field(width: nat, height: nat, particles: seq<Particle>, mouse: Point)

  /** `resizeCanvas()` then `createParticles()`, at mount and on every resize. */
  function Resize(f: Field, innerWidth: nat, innerHeight: nat, draws: seq<Draws>): (g: Field)
    requires ParticleCount(innerWidth, innerHeight) <= |draws|
    ensures g.width == innerWidth && g.height == innerHeight && g.mouse == f.mouse
    ensures |g.particles| == ParticleCount(innerWidth, innerHeight)
  {
    Field(innerWidth, innerHeight, CreateParticles(innerWidth, innerHeight, draws), f.mouse)
  }

  /** Mounting: the pointer starts at the origin, the field is sized and
      populated, and `animate()` runs once synchronously, so every particle
      has already taken one step before the first requested frame. */
  function Mount(innerWidth: nat, innerHeight: nat, draws: seq<Draws>): (m: Field)
    requires ParticleCount(innerWidth, innerHeight) <= |draws|
    ensures m.width == innerWidth && m.height == innerHeight && m.mouse == Point(0.0, 0.0)
    ensures |m.particles| == ParticleCount(innerWidth, innerHeight)
  {
    Step(Resize(Field(0, 0, [], Point(0.0, 0.0)), innerWidth, innerHeight, draws), AnimationFrame)
  }

  datatype Event =
    | WindowResize(innerWidth: nat, innerHeight: nat, draws: seq<Draws>)
    | MouseMove(clientX: real, clientY: real, rectLeft: real, rectTop: real)
    | AnimationFrame

  /** `Math.random()` supplies enough values, all in [0, 1). */
  predicate WellSupplied(e: Event) {
    e.WindowResize? ==>
      && ParticleCount(e.innerWidth, e.innerHeight) <= |e.draws|
      && forall i :: 0 <= i < |e.draws| ==> ValidDraws(e.draws[i])
  }

  function Step(f: Field, e: Event): Field
    requires WellSupplied(e)
  {
    match e
    case WindowResize(w, h, draws) => Resize(f, w, h, draws)
    case MouseMove(cx, cy, left, top) => f.(mouse := CanvasPointer(cx, cy, left, top))
    case AnimationFrame => f.(particles := StepAll(f.particles, f.width, f.height))
  }

  function Run(f: Field, events: seq<Event>): Field
    requires forall k :: 0 <= k < |events| ==> WellSupplied(events[k])
    decreases |events|
  {
    if |events| == 0 then f else Run(Step(f, events[0]), events[1..])
  }

  /** The field's invariant: as many particles as the area allows, each
      inside the canvas and settled. */
  predicate Healthy(f: Field) {
    && |f.particles| == ParticleCount(f.width, f.height)
    && forall i :: 0 <= i < |f.particles| ==>
         InCanvas(f.particles[i], f.width, f.height) && Settled(f.particles[i])
  }

  lemma StepHealthy(f: Field, e: Event)
    requires WellSupplied(e) && Healthy(f)
    ensures Healthy(Step(f, e))
  {
    match e
    case WindowResize(w, h, draws) =>
      var g := Step(f, e);
      forall i | 0 <= i < |g.particles|
        ensures InCanvas(g.particles[i], w, h) && Settled(g.particles[i])
      {
        assert Fresh(g.particles[i], w, h);
        SettledPreserved(g.particles[i], w, h, w, h);
      }
    case MouseMove(_, _, _, _) =>
    case AnimationFrame =>
      var g := Step(f, e);
      forall i | 0 <= i < |g.particles|
        ensures InCanvas(g.particles[i], f.width, f.height) && Settled(g.particles[i])
      {
        SettledPreserved(f.particles[i], f.width, f.height, f.width, f.height);
      }
  }

  /** Whatever sequence of resizes, pointer moves and frames follows a
      mount, the field keeps its area-proportional size and every particle
      stays inside the canvas with its speeds, radius and opacity in range. */
  lemma {:induction false} RunHealthy(f: Field, events: seq<Event>)
    requires forall k :: 0 <= k < |events| ==> WellSupplied(events[k])
    requires Healthy(f)
    ensures Healthy(Run(f, events))
    decreases |events|
  {
    if |events| > 0 {
      StepHealthy(f, events[0]);
      RunHealthy(Step(f, events[0]), events[1..]);
    }
  }

  /** A mount with valid draws yields a healthy field of the window's size,
      with the pointer at the origin and each particle one step on from its
      draws. */
  lemma MountHealthy(innerWidth: nat, innerHeight: nat, draws: seq<Draws>)
    requires ParticleCount(innerWidth, innerHeight) <= |draws|
    requires forall i :: 0 <= i < |draws| ==> ValidDraws(draws[i])
    ensures Healthy(Mount(innerWidth, innerHeight, draws))
    ensures Mount(innerWidth, innerHeight, draws).width == innerWidth
    ensures Mount(innerWidth, innerHeight, draws).height == innerHeight
    ensures Mount(innerWidth, innerHeight, draws).mouse == Point(0.0, 0.0)
    ensures forall i :: 0 <= i < |Mount(innerWidth, innerHeight, draws).particles| ==>
              Mount(innerWidth, innerHeight, draws).particles[i] ==
              UpdateParticle(NewParticle(innerWidth, innerHeight, draws[i]), innerWidth, innerHeight)
  {
    var empty := Field(0, 0, [], Point(0.0, 0.0));
    var sized := Resize(empty, innerWidth, innerHeight, draws);
    StepHealthy(empty, WindowResize(innerWidth, innerHeight, draws));
    StepHealthy(sized, AnimationFrame);
  }

  /** The synchronous first `animate()` is visible at once: on a 100 x 80
      canvas (room for one particle), a particle drawn at the left edge moving
      left has already bounced when mounting returns. */
  lemma MountBouncesAtOnce()
    ensures |Mount(100, 80, [Draws(0.0, 0.0, 0.0, 0.5, 0.0, 0.0)]).particles| == 1
    ensures Mount(100, 80, [Draws(0.0, 0.0, 0.0, 0.5, 0.0, 0.0)]).particles[0].vx == 0.75
    ensures Mount(100, 80, [Draws(0.0, 0.0, 0.0, 0.5, 0.0, 0.0)]).particles[0].x == 0.0
  {
    var d := [Draws(0.0, 0.0, 0.0, 0.5, 0.0, 0.0)];
    assert ParticleCount(100, 80) == 1;
    var p := NewParticle(100, 80, d[0]);
    assert p.x == 0.0 && p.vx == -0.75;
  }

  /** A resize discards the old particles: the new field depends only on the
      new size, the random draws and the pointer. */
  lemma ResizeForgetsOldParticles(f: Field, g: Field, w: nat, h: nat, draws: seq<Draws>)
    requires ParticleCount(w, h) <= |draws|
    requires f.mouse == g.mouse
    ensures Resize(f, w, h, draws) == Resize(g, w, h, draws)
  {
  }

  // ---------------------------------------------------------------------------
  // Pointer delivery
  // ---------------------------------------------------------------------------

  /** The pointer position of the last move in `events`, if any. */
  function LastPointer(events: seq<Event>): Option<Point>
    decreases |events|
  {
    if |events| == 0 then None
    else
      match events[|events| - 1]
      case MouseMove(cx, cy, left, top) => Some(CanvasPointer(cx, cy, left, top))
      case _ => LastPointer(events[..|events| - 1])
  }

  /** `Run` on a sequence with one more event at the end. */
  lemma {:induction false} RunSnoc(f: Field, events: seq<Event>, e: Event)
    requires forall k :: 0 <= k < |events| ==> WellSupplied(events[k])
    requires WellSupplied(e)
    ensures forall k :: 0 <= k < |events + [e]| ==> WellSupplied((events + [e])[k])
    ensures Run(f, events + [e]) == Step(Run(f, events), e)
    decreases |events|
  {
    assert forall k :: 0 <= k < |events + [e]| ==> (events + [e])[k] == if k < |events| then events[k] else e;
    if |events| > 0 {
      assert (events + [e])[1..] == events[1..] + [e];
      RunSnoc(Step(f, events[0]), events[1..], e);
    }
  }

  /** With every move delivered, as `drawMouseConnections` needs, the pointer
      is where the last move put it, in canvas coordinates, or where it was
      when nothing has moved. */
  lemma {:induction false} PointerTracksMouse(f: Field, events: seq<Event>)
    requires forall k :: 0 <= k < |events| ==> WellSupplied(events[k])
    ensures Run(f, events).mouse == LastPointer(events).GetOr(f.mouse)
    decreases |events|
  {
    if |events| > 0 {
      var init := events[..|events| - 1];
      var e := events[|events| - 1];
      assert events == init + [e];
      RunSnoc(f, init, e);
      PointerTracksMouse(f, init);
    }
  }

  /** As written: the canvas is styled `pointer-events-none`, so the browser
      never dispatches `mousemove` to it and the canvas's listener never runs;
      every other event is handled as in `Step`. */
  function StepAsWritten(f: Field, e: Event): Field
    requires WellSupplied(e)
  {
    if e.MouseMove? then f else Step(f, e)
  }

  function RunAsWritten(f: Field, events: seq<Event>): Field
    requires forall k :: 0 <= k < |events| ==> WellSupplied(events[k])
    decreases |events|
  {
    if |events| == 0 then f else RunAsWritten(StepAsWritten(f, events[0]), events[1..])
  }

  /** As written the pointer never leaves the origin it is mounted with, so
      every pointer line is drawn to the canvas's top-left corner. */
  lemma PointerStuckAsWritten(w: nat, h: nat, draws: seq<Draws>, events: seq<Event>)
    requires ParticleCount(w, h) <= |draws|
    requires forall k :: 0 <= k < |events| ==> WellSupplied(events[k])
    ensures RunAsWritten(Mount(w, h, draws), events).mouse == Point(0.0, 0.0)
  {
    KeepsPointer(Mount(w, h, draws), events);
  }

  /** As written no event moves the pointer. */
  lemma {:induction false} KeepsPointer(f: Field, events: seq<Event>)
    requires forall k :: 0 <= k < |events| ==> WellSupplied(events[k])
    ensures RunAsWritten(f, events).mouse == f.mouse
    decreases |events|
  {
    if |events| > 0 {
      KeepsPointer(StepAsWritten(f, events[0]), events[1..]);
    }
  }

  /** The discrepancy on one input: a move to (100, 50) over a canvas at the
      page origin. Delivered, the pointer is at (100, 50); as written it stays
      at (0, 0). */
  lemma PointerMoveLostAsWritten()
    ensures Step(Mount(0, 0, []), MouseMove(100.0, 50.0, 0.0, 0.0)).mouse == Point(100.0, 50.0)
    ensures StepAsWritten(Mount(0, 0, []), MouseMove(100.0, 50.0, 0.0, 0.0)).mouse == Point(0.0, 0.0)
  {
  }
}

=== FILE: real_order.dfy ===
/** Order facts about real arithmetic shared by the work page and the
    particle backdrop. */
module RealOrder {
  /** Multiplying by a non-negative factor preserves order. */
  lemma ScaleMonotone(a: real, b: real, c: real)
    requires a <= b && 0.0 <= c
    ensures a * c <= b * c
  {
    assert b * c - a * c == (b - a) * c;
  }
}

=== FILE: scroll_animations.dfy ===
/** Reusable scroll effects (components/scroll-animations.tsx).

    `ScrollAnimation` wraps its children in an element carrying one of four
    reveal classes and, each time its observer reports the element as
    intersecting, starts a timer that adds "revealed" after the configured
    delay. `ParallaxElement` shifts its element vertically by the page offset
    times a speed factor on every scroll.

    Time is an input (the `now` of each event), and so are the observer's
    verdicts; its geometry (threshold, root margin) is not modelled. */
module ScrollAnimations {
  import opened Wrappers
  import opened ClassList
  import Hero

  // ---------------------------------------------------------------------------
  // Animation kinds and class names
  // ---------------------------------------------------------------------------

  /** The `animation` prop. */
  datatype Animation = FadeUp | SlideLeft | SlideRight | Scale

  /** The `animationClass` table. Every class it yields is one the hero's
      observer looks for. */
  function AnimationClass(a: Animation): (cls: string)
    ensures cls in Hero.ObservedSelector
    ensures ' ' !in cls
  {
    match a
    case FadeUp => "scroll-reveal"
    case SlideLeft => "scroll-reveal-left"
    case SlideRight => "scroll-reveal-right"
    case Scale => "scroll-reveal-scale"
  }

  /** Distinct kinds get distinct classes, and the four classes are exactly
      the hero's selector list. */
  lemma AnimationClassBijective()
    ensures forall a, b :: AnimationClass(a) == AnimationClass(b) ==> a == b
    ensures forall c :: c in Hero.ObservedSelector ==> exists a :: AnimationClass(a) == c
  {
    assert AnimationClass(FadeUp) == "scroll-reveal";
    assert AnimationClass(SlideLeft) == "scroll-reveal-left";
    assert AnimationClass(SlideRight) == "scroll-reveal-right";
    assert AnimationClass(Scale) == "scroll-reveal-scale";
  }

  /** The props as passed: an omitted prop is `None`. */
  datatype Props = Props(className: Option<string>, animation: Option<Animation>, delay: Option<real>)

  /** The props after the destructuring defaults. */
  datatype Settings = Settings(className: string, animation: Animation, delay: real)

  /** Destructuring with defaults: an omitted class name is "", an omitted
      animation is fade-up, an omitted delay is 0. */
  function Resolve(p: Props): (s: Settings)
    ensures p.className.Some? ==> s.className == p.className.value
    ensures p.animation.Some? ==> s.animation == p.animation.value
    ensures p.delay.Some? ==> s.delay == p.delay.value
  {
    Settings(p.className.GetOr(""), p.animation.GetOr(FadeUp), p.delay.GetOr(0.0))
  }

  /** With no props at all the element fades up, with no delay and no extra
      class. */
  lemma Defaults()
    ensures Resolve(Props(None, None, None)) == Settings("", FadeUp, 0.0)
    ensures AnimationClass(Resolve(Props(None, None, None)).animation) == "scroll-reveal"
  {
  }

  /** The wrapper's class attribute: the animation class, a space, then the
      caller's class name. */
  function WrapperClass(s: Settings): string {
    AnimationClass(s.animation) + " " + s.className
  }

  /** Splits a class attribute at its first space: the first class and the
      rest. Without a space the rest is empty. */
  function SplitFirstSpace(attr: string): (parts: (string, string))
    ensures ' ' !in parts.0
    ensures ' ' in attr ==> attr == parts.0 + " " + parts.1
    ensures ' ' !in attr ==> parts == (attr, "")
    decreases |attr|
  {
    if |attr| == 0 then ("", "")
    else if attr[0] == ' ' then ("", attr[1..])
    else
      var rest := SplitFirstSpace(attr[1..]);
      assert ' ' in attr[1..] ==> ' ' in attr;
      assert ' ' in attr ==> ' ' in attr[1..] by {
        if ' ' in attr {
          var k :| 0 <= k < |attr| && attr[k] == ' ';
          assert attr[1..][k - 1] == ' ';
        }
      }
      assert attr == [attr[0]] + attr[1..];
      ([attr[0]] + rest.0, rest.1)
  }

  /** Splitting a space-free head joined to a tail by a space gives the two
      back. */
  lemma {:induction false} SplitJoin(head: string, tail: string)
    requires ' ' !in head
    ensures SplitFirstSpace(head + " " + tail) == (head, tail)
    decreases |head|
  {
    var attr := head + " " + tail;
    if |head| > 0 {
      assert attr[0] == head[0];
      assert attr[1..] == head[1..] + " " + tail;
      SplitJoin(head[1..], tail);
      assert [head[0]] + head[1..] == head;
    } else {
      assert attr[0] == ' ';
      assert attr[1..] == tail;
    }
  }

  /** The wrapper class can be taken apart again: its first class is the
      animation class and the rest is exactly the caller's class name. */
  lemma WrapperClassRoundTrip(s: Settings)
    ensures SplitFirstSpace(WrapperClass(s)) == (AnimationClass(s.animation), s.className)
  {
    SplitJoin(AnimationClass(s.animation), s.className);
  }

  // ---------------------------------------------------------------------------
  // Delayed reveal
  // ---------------------------------------------------------------------------

  const TwoTo31: int := 0x8000_0000
  const TwoTo32: int := 0x1_0000_0000

  /** The integer part of a number, rounding toward zero. */
  function Truncate(x: real): (t: int)
    ensures x >= 0.0 ==> t >= 0 && t as real <= x < t as real + 1.0
    ensures x < 0.0 ==> t <= 0 && t as real - 1.0 < x <= t as real
  {
    if x >= 0.0 then x.Floor else -((-x).Floor)
  }

  /** Web IDL's conversion of a number to a `long`, the type of
      `setTimeout`'s delay: truncate, then wrap modulo 2^32 into the signed
      32-bit range. Numbers already in that range keep their integer part. */
  function ToLong(x: real): (n: int)
    ensures -TwoTo31 <= n < TwoTo31
    ensures (n - Truncate(x)) % TwoTo32 == 0
    ensures -(TwoTo31 as real) <= x < TwoTo31 as real ==> n == Truncate(x)
  {
    var m := Truncate(x) % TwoTo32;
    if m >= TwoTo31 then m - TwoTo32 else m
  }

  /** The milliseconds `setTimeout` actually waits: the delay as a `long`,
      with a negative value treated as 0. The wait is a whole number of
      milliseconds below 2^31; a delay in that range waits its integer part,
      a negative delay down to -2^31 does not wait at all. */
  function TimerDelay(delay: real): (d: real)
    ensures 0.0 <= d < TwoTo31 as real
    ensures d == d.Floor as real
    ensures 0.0 <= delay < TwoTo31 as real ==> d == delay.Floor as real
    ensures -(TwoTo31 as real) <= delay <= 0.0 ==> d == 0.0
  {
    var n := ToLong(delay);
    if n > 0 then n as real else 0.0
  }

  /** The conversion shows through: a fractional delay loses its fraction,
      and a delay of 2^32 + 5 milliseconds wraps around to 5. */
  lemma TimerDelayConversion()
    ensures TimerDelay(1.5) == 1.0
    ensures TimerDelay(-0.5) == 0.0
    ensures TimerDelay(TwoTo32 as real + 5.0) == 5.0
  {
    assert Truncate(TwoTo32 as real + 5.0) == TwoTo32 + 5;
  }

  /** One component instance: its element's classes, the due times of the
      timers its observer has started, whether the observer is still
      connected, and the delay the current observer was created with. */
  datatype Instance = Instance(classes: set<string>, timers: seq<real>, observing: bool, delay: real)

  /** Freshly mounted: no timers yet, observing with the resolved delay. */
  function Mount(classes: set<string>, s: Settings): Instance {
    Instance(classes, [], true, s.delay)
  }

  /** The number of intersecting entries among `flags`. */
  function CountTrue(flags: seq<bool>): nat
    decreases |flags|
  {
    if |flags| == 0 then 0 else (if flags[0] then 1 else 0) + CountTrue(flags[1..])
  }

  /** The timers one observer callback starts: one per intersecting entry,
      each due the timer delay after `now`. */
  function NewTimers(flags: seq<bool>, due: real): (ts: seq<real>)
    ensures |ts| == CountTrue(flags)
    ensures forall k :: 0 <= k < |ts| ==> ts[k] == due
    decreases |flags|
  {
    if |flags| == 0 then []
    else (if flags[0] then [due] else []) + NewTimers(flags[1..], due)
  }

  /** The observer callback at time `now`, given the `isIntersecting` flags
      of its entries (all for this instance's element). It only starts
      timers: the class list is untouched even with a zero delay. A
      disconnected observer delivers nothing. */
  function OnEntries(st: Instance, now: real, flags: seq<bool>): (r: Instance)
    ensures r.classes == st.classes && r.observing == st.observing && r.delay == st.delay
    ensures st.observing ==> |r.timers| == |st.timers| + CountTrue(flags)
    ensures st.observing ==> r.timers[..|st.timers|] == st.timers
    ensures st.observing ==> forall k :: |st.timers| <= k < |r.timers| ==>
              r.timers[k] == now + TimerDelay(st.delay)
    ensures !st.observing ==> r == st
  {
    if st.observing then st.(timers := st.timers + NewTimers(flags, now + TimerDelay(st.delay)))
    else st
  }

  /** Some timer is due by `now`. */
  predicate AnyDue(timers: seq<real>, now: real) {
    exists k :: 0 <= k < |timers| && timers[k] <= now
  }

  /** The timers still pending after `now`, in order. */
  function StillPending(timers: seq<real>, now: real): (rest: seq<real>)
    ensures forall k :: 0 <= k < |rest| ==> rest[k] > now && rest[k] in timers
    ensures forall k :: 0 <= k < |timers| && timers[k] > now ==> timers[k] in rest
    ensures |rest| <= |timers|
    decreases |timers|
  {
    if |timers| == 0 then []
    else
      var tail := StillPending(timers[1..], now);
      assert forall x :: x in timers[1..] ==> x in timers;
      assert forall k :: 1 <= k < |timers| ==> timers[k] == timers[1..][k - 1];
      (if timers[0] > now then [timers[0]] else []) + tail
  }

  /** Time advances to `now`: every due timer fires (each adds "revealed")
      and leaves the list; the rest stay pending. Disconnecting the observer
      does not cancel timers. */
  function Tick(st: Instance, now: real): (r: Instance)
    ensures Revealed in r.classes <==> Revealed in st.classes || AnyDue(st.timers, now)
    ensures st.classes <= r.classes && r.classes - st.classes <= {Revealed}
    ensures !AnyDue(r.timers, now)
    ensures forall k :: 0 <= k < |st.timers| && st.timers[k] > now ==> st.timers[k] in r.timers
    ensures forall x :: x in r.timers ==> x in st.timers && x > now
    ensures r.observing == st.observing && r.delay == st.delay
  {
    var rest := StillPending(st.timers, now);
    Instance(if AnyDue(st.timers, now) then Add(st.classes, Revealed) else st.classes,
             rest, st.observing, st.delay)
  }

  datatype InstanceEvent =
    | Entries(now: real, flags: seq<bool>)   // an observer callback
    | Clock(now: real)                       // timers up to `now` fire
    | DelayChanged(delay: real)              // the effect re-runs with a new delay
    | Unmount                                // the effect's cleanup

  function Step(st: Instance, e: InstanceEvent): Instance {
    match e
    case Entries(now, flags) => OnEntries(st, now, flags)
    case Clock(now) => Tick(st, now)
    case DelayChanged(d) => if st.observing then st.(delay := d) else st
    case Unmount => st.(observing := false)
  }

  function Run(st: Instance, events: seq<InstanceEvent>): Instance
    decreases |events|
  {
    if |events| == 0 then st else Run(Step(st, events[0]), events[1..])
  }

  /** The reveal is never earlier than the delay: one intersecting entry at
      `now` on a fresh instance reveals nothing before `now + delay`, and
      reveals the element once the clock reaches it. */
  lemma RevealAfterDelay(classes: set<string>, s: Settings, now: real, later: real)
    requires Revealed !in classes
    ensures (Revealed in Step(OnEntries(Mount(classes, s), now, [true]), Clock(later)).classes)
            <==> later >= now + TimerDelay(s.delay)
  {
    var st := OnEntries(Mount(classes, s), now, [true]);
    assert st.timers == [now + TimerDelay(s.delay)];
  }

  /** A timer with one pending deadline is untouched by clock ticks that
      come before that deadline. */
  lemma {:induction false} EarlyTicksChangeNothing(st: Instance, events: seq<InstanceEvent>)
    requires |st.timers| == 1
    requires forall k :: 0 <= k < |events| ==> events[k].Clock? && events[k].now < st.timers[0]
    ensures Run(st, events) == st
    decreases |events|
  {
    if |events| > 0 {
      var next := Tick(st, events[0].now);
      assert next.timers == st.timers;
      assert forall k :: 0 <= k < |events[1..]| ==> events[1..][k] == events[k + 1];
      EarlyTicksChangeNothing(next, events[1..]);
    }
  }

  /** The reveal happens at the first tick that reaches the deadline, however
      many earlier ticks came first: after one intersecting entry at `now`
      and any ticks before `now + delay`, a tick at `later` reveals the
      element exactly when `later` reaches `now + delay`. */
  lemma RevealDespiteEarlierTicks(classes: set<string>, s: Settings, now: real,
                                  earlier: seq<InstanceEvent>, later: real)
    requires Revealed !in classes
    requires forall k :: 0 <= k < |earlier| ==>
               earlier[k].Clock? && earlier[k].now < now + TimerDelay(s.delay)
    ensures (Revealed in Step(Run(OnEntries(Mount(classes, s), now, [true]), earlier), Clock(later)).classes)
            <==> later >= now + TimerDelay(s.delay)
  {
    var st := OnEntries(Mount(classes, s), now, [true]);
    assert st.timers == [now + TimerDelay(s.delay)];
    EarlyTicksChangeNothing(st, earlier);
    assert Run(st, earlier) == st;
    RevealAfterDelay(classes, s, now, later);
  }

  /** A started timer is never lost: whatever callbacks, delay changes or
      unmounting happen, and whatever ticks come before its deadline, it is
      still pending, and the first tick at or after the deadline reveals the
      element. */
  lemma {:induction false} PendingTimerFires(st: Instance, due: real,
                                             events: seq<InstanceEvent>, later: real)
    requires due in st.timers
    requires forall k :: 0 <= k < |events| && events[k].Clock? ==> events[k].now < due
    requires later >= due
    ensures due in Run(st, events).timers
    ensures Revealed in Step(Run(st, events), Clock(later)).classes
    decreases |events|
  {
    if |events| == 0 {
      var k :| 0 <= k < |st.timers| && st.timers[k] == due;
      assert AnyDue(st.timers, later);
    } else {
      var next := Step(st, events[0]);
      assert due in next.timers by {
        match events[0]
        case Entries(now, flags) =>
          if st.observing {
            assert next.timers[..|st.timers|] == st.timers;
            var k :| 0 <= k < |st.timers| && st.timers[k] == due;
            assert next.timers[k] == due;
          }
        case Clock(now) =>
          var k :| 0 <= k < |st.timers| && st.timers[k] == due;
          assert st.timers[k] > now;
        case DelayChanged(d) =>
        case Unmount =>
      }
      assert forall k :: 0 <= k < |events[1..]| ==> events[1..][k] == events[k + 1];
      PendingTimerFires(next, due, events[1..], later);
    }
  }

  /** Nothing is ever taken out of the class list. */
  lemma {:induction false} ClassesOnlyGrow(st: Instance, events: seq<InstanceEvent>)
    ensures st.classes <= Run(st, events).classes
    ensures Run(st, events).classes - st.classes <= {Revealed}
    decreases |events|
  {
    if |events| > 0 {
      ClassesOnlyGrow(Step(st, events[0]), events[1..]);
    }
  }

  /** Without an intersecting entry no timer starts, so an instance with no
      pending timer never gains "revealed". */
  lemma {:induction false} NoIntersectionNoReveal(st: Instance, events: seq<InstanceEvent>)
    requires |st.timers| == 0
    requires forall k :: 0 <= k < |events| && events[k].Entries? ==> CountTrue(events[k].flags) == 0
    ensures Run(st, events).classes == st.classes
    ensures |Run(st, events).timers| == 0
    decreases |events|
  {
    if |events| > 0 {
      var next := Step(st, events[0]);
      assert |next.timers| == 0 && next.classes == st.classes by {
        if events[0].Clock? {
          assert !AnyDue(st.timers, events[0].now);
        }
      }
      assert forall k :: 0 <= k < |events[1..]| ==> events[1..][k] == events[k + 1];
      NoIntersectionNoReveal(next, events[1..]);
    }
  }

  /** After unmounting, callbacks start no timers, whatever they report. */
  lemma {:induction false} NoTimersAfterUnmount(st: Instance, events: seq<InstanceEvent>)
    requires !st.observing
    ensures !Run(st, events).observing
    ensures |Run(st, events).timers| <= |st.timers|
    decreases |events|
  {
    if |events| > 0 {
      NoTimersAfterUnmount(Step(st, events[0]), events[1..]);
    }
  }

  // ---------------------------------------------------------------------------
  // Parallax
  // ---------------------------------------------------------------------------

  /** The default speed factor. */
  const DefaultSpeed: real := 0.5

  /** The vertical shift: page offset times speed. */
  function ParallaxOffset(pageYOffset: real, speed: real): (dy: real)
    ensures pageYOffset == 0.0 ==> dy == 0.0
    ensures speed == DefaultSpeed ==> dy + dy == pageYOffset
  {
    pageYOffset * speed
  }

  /** For a non-negative speed the shift grows with the scroll. */
  lemma ParallaxMonotone(y1: real, y2: real, speed: real)
    requires y1 <= y2 && speed >= 0.0
    ensures ParallaxOffset(y1, speed) <= ParallaxOffset(y2, speed)
  {
    assert ParallaxOffset(y2, speed) - ParallaxOffset(y1, speed) == (y2 - y1) * speed;
  }

  /** The scroll handler: while the element is mounted its transform is set
      to the shift for the current offset; with no element nothing happens. */
  function OnParallaxScroll(transform: Option<real>, mounted: bool, pageYOffset: real, speed: real)
    : (t: Option<real>)
    ensures mounted ==> t == Some(ParallaxOffset(pageYOffset, speed))
    ensures !mounted ==> t == transform
    ensures mounted && pageYOffset == 0.0 ==> t == Some(0.0)
    ensures mounted && pageYOffset >= 0.0 && speed >= 0.0 ==> t.value >= 0.0
    ensures mounted && speed == DefaultSpeed ==> t.value + t.value == pageYOffset
  {
    if mounted then Some(pageYOffset * speed) else transform
  }

  /** Successive scrolls move a mounted element in step with the page: with
      a non-negative speed, scrolling further down never shifts it less, and
      whatever it showed before, the transform reflects only the latest
      offset. */
  lemma ParallaxScrollsInStep(before: Option<real>, other: Option<real>, y1: real, y2: real, speed: real)
    requires y1 <= y2 && speed >= 0.0
    ensures OnParallaxScroll(before, true, y1, speed).value <= OnParallaxScroll(other, true, y2, speed).value
    ensures OnParallaxScroll(OnParallaxScroll(before, true, y1, speed), true, y2, speed) ==
            OnParallaxScroll(other, true, y2, speed)
  {
    ParallaxMonotone(y1, y2, speed);
  }

  const ParallaxBase: string := "parallax-element "

  /** The parallax wrapper's class: the fixed class, a space, then the
      caller's class name. */
  function ParallaxClass(className: string): (cls: string)
    ensures |cls| == |ParallaxBase| + |className|
  {
    ParallaxBase + className
  }

  /** The caller's class name is recoverable: the wrapper class always starts
      with "parallax-element " and what follows is exactly `className`. */
  lemma ParallaxClassRoundTrip(className: string)
    ensures ParallaxClass(className)[..|ParallaxBase|] == ParallaxBase
    ensures ParallaxClass(className)[|ParallaxBase|..] == className
    ensures SplitFirstSpace(ParallaxClass(className)) == ("parallax-element", className)
  {
    assert ParallaxBase == "parallax-element" + " ";
    SplitJoin("parallax-element", className);
  }
}

=== FILE: scroll_phase.dfy ===
/** The pinned showreel of the work page (app/work/page.tsx).

    A section twice the viewport high is tracked while the page scrolls. Its
    top offset relative to the viewport is turned into a raw progress, the raw
    progress into a phase that starts late (at 15%) but ends with it, and the
    phase into a "pin" flag (the hero stays `fixed` until the phase reaches 1)
    and into eased visual outputs: the text offset and opacity and the
    overlay's darkness and blur. Scroll events are coalesced to one update per
    animation frame by a `ticking` flag.

    Arithmetic is exact; JavaScript's special values matter only where a zero
    viewport height makes the first division degenerate, so only they are
    modelled. */
module ScrollPhase {
  import opened Wrappers
  import opened RealOrder

  // ---------------------------------------------------------------------------
  // Numbers and clamping
  // ---------------------------------------------------------------------------

  /** A JavaScript number: an exact real, or one of the IEEE-754 special
      values that a division by a zero viewport height can produce. */
  datatype Number = Finite(value: real) | PositiveInfinity | NegativeInfinity | NaN

  /** `a / b` on finite operands. The divisor is always a window height or a
      positive constant, so a zero divisor is +0: a non-zero dividend gives an
      infinity of its sign and 0 / 0 gives NaN. */
  function Divide(a: real, b: real): (q: Number)
    ensures q.Finite? <==> b != 0.0
    ensures q.Finite? ==> q.value * b == a
    ensures q.NaN? <==> a == 0.0 && b == 0.0
    ensures q.PositiveInfinity? <==> b == 0.0 && a > 0.0
  {
    if b != 0.0 then Finite(a / b)
    else if a > 0.0 then PositiveInfinity
    else if a < 0.0 then NegativeInfinity
    else NaN
  }

  /** `Math.max(lo, n)`: NaN wins over everything. */
  function MaxWith(lo: real, n: Number): Number {
    match n
    case Finite(v) => Finite(if v < lo then lo else v)
    case PositiveInfinity => PositiveInfinity
    case NegativeInfinity => Finite(lo)
    case NaN => NaN
  }

  /** `Math.min(hi, n)`: NaN wins over everything. */
  function MinWith(hi: real, n: Number): Number {
    match n
    case Finite(v) => Finite(if hi < v then hi else v)
    case PositiveInfinity => Finite(hi)
    case NegativeInfinity => NegativeInfinity
    case NaN => NaN
  }

  /** `clamp(n, min, max)`, i.e. `Math.min(max, Math.max(min, n))`. For a
      well-formed range every non-NaN number lands inside it, numbers already
      inside are returned unchanged, and the infinities go to the ends. */
  function Clamp(n: Number, lo: real, hi: real): (r: Number)
    ensures r.NaN? <==> n.NaN?
    ensures !n.NaN? && lo <= hi ==> r.Finite? && lo <= r.value <= hi
    ensures n.Finite? && lo <= n.value <= hi ==> r == n
    ensures n.PositiveInfinity? ==> r == Finite(hi)
    ensures n.NegativeInfinity? && lo <= hi ==> r == Finite(lo)
  {
    MinWith(hi, MaxWith(lo, n))
  }

  /** `clamp(n)` with the default bounds 0 and 1, as the work page calls it. */
  function Clamp01(n: Number): Number {
    Clamp(n, 0.0, 1.0)
  }

  /** Clamping twice is clamping once. */
  lemma ClampIdempotent(n: Number, lo: real, hi: real)
    requires lo <= hi
    ensures Clamp(Clamp(n, lo, hi), lo, hi) == Clamp(n, lo, hi)
  {
  }

  /** Clamping preserves the order of finite numbers. */
  lemma ClampMonotone(a: real, b: real, lo: real, hi: real)
    requires a <= b && lo <= hi
    ensures Clamp(Finite(a), lo, hi).value <= Clamp(Finite(b), lo, hi).value
  {
  }

  // ---------------------------------------------------------------------------
  // Scroll position -> raw progress -> phase -> pin
  // ---------------------------------------------------------------------------

  /** The phase window: the animation starts at 15% of the raw progress and
      ends with it. */
  const Start: real := 0.15
  const End: real := 1.0

  /** Raw progress, `clamp((0 - rect.top) / viewportH)`: 0 while the section's
      top is at or below the viewport top, 1 once it has scrolled a whole
      viewport height past it, linear in between. With a zero-height viewport
      the division is degenerate and only the sign of `top` survives. */
  function RawProgress(top: real, viewportH: nat): (raw: Number)
    ensures viewportH > 0 ==> raw.Finite? && 0.0 <= raw.value <= 1.0
    ensures viewportH > 0 && top >= 0.0 ==> raw == Finite(0.0)
    ensures viewportH > 0 && top <= -(viewportH as real) ==> raw == Finite(1.0)
    ensures viewportH > 0 && -(viewportH as real) <= top <= 0.0 ==>
              raw.value * (viewportH as real) == -top
    ensures viewportH == 0 ==>
              raw == (if top < 0.0 then Finite(1.0) else if top > 0.0 then Finite(0.0) else NaN)
  {
    var q := Divide(0.0 - top, viewportH as real);
    QuotientAtLeastOne(0.0 - top, viewportH as real);
    Clamp01(q)
  }

  /** A quotient whose dividend reaches a positive divisor is at least 1. */
  lemma QuotientAtLeastOne(a: real, b: real)
    ensures 0.0 < b <= a ==> a / b >= 1.0
  {
    if 0.0 < b <= a {
      assert (a / b) * b == a;
    }
  }

  /** Scrolling further down (the section's top moving up) never decreases
      the raw progress. */
  lemma RawProgressMonotone(top1: real, top2: real, viewportH: nat)
    requires viewportH > 0 && top1 <= top2
    ensures RawProgress(top2, viewportH).value <= RawProgress(top1, viewportH).value
  {
    var h := viewportH as real;
    assert (0.0 - top2) / h <= (0.0 - top1) / h;
    ClampMonotone((0.0 - top2) / h, (0.0 - top1) / h, 0.0, 1.0);
  }

  /** The phase, `clamp((raw - start) / (end - start))`: 0 up to the start
      of the window, 1 exactly when the raw progress is 1, a number in [0, 1]
      for every finite raw progress, and NaN exactly when the raw progress is. */
  function Phase(raw: Number): (phase: Number)
    ensures phase.NaN? <==> raw.NaN?
    ensures raw.Finite? ==> phase.Finite? && 0.0 <= phase.value <= 1.0
    ensures raw.Finite? && raw.value <= Start ==> phase == Finite(0.0)
    ensures raw.Finite? && raw.value <= End ==> (phase == Finite(1.0) <==> raw.value == End)
  {
    var shifted :=
      match raw
      case Finite(r) => Divide(r - Start, End - Start)
      case _ => raw;  // an infinity minus 0.15, over 0.85, is the same infinity; NaN stays NaN
    Clamp01(shifted)
  }

  /** The phase is non-decreasing in the raw progress. */
  lemma PhaseMonotone(raw1: real, raw2: real)
    requires raw1 <= raw2
    ensures Phase(Finite(raw1)).value <= Phase(Finite(raw2)).value
  {
    assert (raw1 - Start) / (End - Start) <= (raw2 - Start) / (End - Start);
    ClampMonotone((raw1 - Start) / (End - Start), (raw2 - Start) / (End - Start), 0.0, 1.0);
  }

  /** `mapped < 1` under JavaScript's comparison, which is false for NaN. */
  function Pin(phase: Number): bool {
    match phase
    case Finite(p) => p < 1.0
    case NegativeInfinity => true
    case _ => false
  }

  /** The phase the page computes from the section's top offset. */
  function PhaseAt(top: real, viewportH: nat): Number {
    Phase(RawProgress(top, viewportH))
  }

  /** With a real viewport the hero is pinned exactly while the section has
      scrolled less than one full viewport height, i.e. exactly while the
      phase is below 1. */
  lemma PinnedUntilOneViewportScrolled(top: real, viewportH: nat)
    requires viewportH > 0
    ensures PhaseAt(top, viewportH).Finite?
    ensures Pin(PhaseAt(top, viewportH)) <==> PhaseAt(top, viewportH).value < 1.0
    ensures Pin(PhaseAt(top, viewportH)) <==> top > -(viewportH as real)
  {
    var h := viewportH as real;
    var raw := RawProgress(top, viewportH);
    if top > -h {
      if top <= 0.0 {
        assert raw.value * h == -top < h;
        assert raw.value < 1.0;
      }
      assert raw.value < End;
    }
  }

  /** The degenerate viewport: with zero height and the section exactly at
      the top, the phase is NaN and the hero is released (not pinned). */
  lemma ZeroViewportReleasesHero()
    ensures PhaseAt(0.0, 0).NaN?
    ensures !Pin(PhaseAt(0.0, 0))
  {
  }

  /** The hero's position class: `fixed` while pinned, `relative` after. */
  function HeroPosition(pin: bool): (cls: string)
    ensures cls == "fixed" || cls == "relative"
    ensures (cls == "fixed") <==> pin
  {
    if pin then "fixed" else "relative"
  }

  /** Where the hero sits for a given section offset: `fixed` exactly while
      the section has scrolled less than one viewport height, and
      `relative` from then on; with a zero-height viewport and the section at
      the top (a NaN phase) it is released. */
  lemma HeroFixedUntilOneViewportScrolled(top: real, viewportH: nat)
    ensures viewportH > 0 ==>
              (HeroPosition(Pin(PhaseAt(top, viewportH))) == "fixed" <==> top > -(viewportH as real))
    ensures viewportH > 0 && top <= -(viewportH as real) ==>
              HeroPosition(Pin(PhaseAt(top, viewportH))) == "relative"
    ensures HeroPosition(Pin(PhaseAt(0.0, 0))) == "relative"
  {
    if viewportH > 0 {
      PinnedUntilOneViewportScrolled(top, viewportH);
    }
    ZeroViewportReleasesHero();
  }

  // ---------------------------------------------------------------------------
  // Eased outputs
  // ---------------------------------------------------------------------------

  function Cube(x: real): real {
    x * x * x
  }

  /** Cubing is monotone on all reals. */
  lemma CubeMonotone(u: real, v: real)
    requires u <= v
    ensures Cube(u) <= Cube(v)
  {
    var w := v + u / 2.0;
    var s := v * v + u * v + u * u;
    assert s == w * w + 3.0 * (u * u) / 4.0;
    assert w * w >= 0.0 && u * u >= 0.0;
    assert Cube(v) - Cube(u) == (v - u) * s;
    ScaleMonotone(0.0, v - u, s);
  }

  /** The cube of a number in [0, 1] lies between 0 and the number. */
  lemma CubeOfFraction(u: real)
    ensures 0.0 <= u <= 1.0 ==> 0.0 <= Cube(u) <= u
  {
    if 0.0 <= u <= 1.0 {
      ScaleMonotone(u, 1.0, u);
      assert 0.0 <= u * u <= 1.0;
      ScaleMonotone(u * u, 1.0, u);
    }
  }

  /** `easeOutCubic(t) = 1 - (1 - t)^3`: fixes 0 and 1, keeps [0, 1] inside
      [0, 1], and on that interval runs ahead of the linear curve. */
  function EaseOutCubic(t: real): (e: real)
    ensures t == 0.0 ==> e == 0.0
    ensures t == 1.0 ==> e == 1.0
    ensures 0.0 <= t <= 1.0 ==> t <= e <= 1.0
  {
    CubeOfFraction(1.0 - t);
    1.0 - Cube(1.0 - t)
  }

  /** The easing is non-decreasing. */
  lemma EaseOutCubicMonotone(s: real, t: real)
    requires s <= t
    ensures EaseOutCubic(s) <= EaseOutCubic(t)
  {
    CubeMonotone(1.0 - t, 1.0 - s);
  }

  /** Where the text starts: 70% of the viewport height plus 140px below
      its resting place. */
  function StartOffset(vh: nat): real {
    vh as real * 0.7 + 140.0
  }

  /** The part `(1 - t) * d` of a non-negative distance still to travel. */
  lemma RemainderBounds(t: real, d: real)
    ensures 0.0 <= t <= 1.0 && 0.0 <= d ==> 0.0 <= (1.0 - t) * d <= d
  {
    if 0.0 <= t <= 1.0 && 0.0 <= d {
      ScaleMonotone(0.0, 1.0 - t, d);
      ScaleMonotone(1.0 - t, 1.0, d);
    }
  }

  /** `textTranslateY = (1 - t) * startOffset`: the full start offset at
      phase 0, nothing at phase 1, and in between never outside that range. */
  function TextTranslateY(phase: real, vh: nat): (y: real)
    ensures 0.0 <= phase <= 1.0 ==> 0.0 <= y <= StartOffset(vh)
    ensures phase == 0.0 ==> y == StartOffset(vh)
    ensures phase == 1.0 ==> y == 0.0
  {
    var t := EaseOutCubic(phase);
    RemainderBounds(t, StartOffset(vh));
    (1.0 - t) * StartOffset(vh)
  }

  /** The text only ever rises as the phase grows. */
  lemma TextRises(p: real, q: real, vh: nat)
    requires p <= q
    ensures TextTranslateY(q, vh) <= TextTranslateY(p, vh)
  {
    var d := StartOffset(vh);
    calc {
      TextTranslateY(q, vh);
      (1.0 - EaseOutCubic(q)) * d;
    <= { EaseOutCubicMonotone(p, q);
         ScaleMonotone(1.0 - EaseOutCubic(q), 1.0 - EaseOutCubic(p), d); }
      (1.0 - EaseOutCubic(p)) * d;
      TextTranslateY(p, vh);
    }
  }

  /** `textOpacity = clamp((t - 0.1) / 0.9)`: always in [0, 1], invisible
      while the eased phase is at most 0.1, fully opaque at phase 1. */
  function TextOpacity(phase: real): (o: real)
    ensures 0.0 <= o <= 1.0
    ensures EaseOutCubic(phase) <= 0.1 ==> o == 0.0
    ensures phase == 1.0 ==> o == 1.0
  {
    var t := EaseOutCubic(phase);
    Clamp01(Finite((t - 0.1) / 0.9)).value
  }

  /** `overlayOpacity = 0.75 * t`: within [0, 0.75], clear at phase 0. */
  function OverlayOpacity(phase: real): (a: real)
    ensures 0.0 <= phase <= 1.0 ==> 0.0 <= a <= 0.75
    ensures phase == 0.0 ==> a == 0.0
    ensures phase == 1.0 ==> a == 0.75
  {
    0.75 * EaseOutCubic(phase)
  }

  /** `overlayBlur = 16 * t` pixels: within [0, 16], none at phase 0. */
  function OverlayBlur(phase: real): (b: real)
    ensures 0.0 <= phase <= 1.0 ==> 0.0 <= b <= 16.0
    ensures phase == 0.0 ==> b == 0.0
    ensures phase == 1.0 ==> b == 16.0
  {
    16.0 * EaseOutCubic(phase)
  }

  /** The overlay darkens and blurs monotonically with the phase. */
  lemma OverlayMonotone(p: real, q: real)
    requires p <= q
    ensures OverlayOpacity(p) <= OverlayOpacity(q)
    ensures OverlayBlur(p) <= OverlayBlur(q)
  {
    EaseOutCubicMonotone(p, q);
  }

  // ---------------------------------------------------------------------------
  // The controller: state, events, single-flight frame scheduling
  // ---------------------------------------------------------------------------

  /** The page's state: the `vh` state, the `phase` and `pin` states, the
      effect's `ticking` flag, the number of requested animation frames not yet
      run, and whether the scroll and resize listeners are still attached. */
  datatype Controller = Controller(
    vh: nat,
    phase: Number,
    pin: bool,
    ticking: bool,
    scheduled: nat,
    listening: bool)

  /** What the browser does to the page. `top` is the section's bounding-box
      top when the callback runs, `None` once the section is gone. */
  datatype Event =
    | Scroll
    | AnimationFrame(top: Option<real>, innerHeight: nat)
    | Resize(top: Option<real>, innerHeight: nat)
    | Unmount

  /** `update()`: nothing without the section, otherwise set the phase and the
      pin flag from the section's geometry. */
  function Update(c: Controller, top: Option<real>, innerHeight: nat): (d: Controller)
    ensures top.None? ==> d == c
    ensures top.Some? ==> d.phase == PhaseAt(top.value, innerHeight) && d.pin == Pin(d.phase)
    ensures d.vh == c.vh && d.ticking == c.ticking && d.scheduled == c.scheduled
    ensures d.listening == c.listening
  {
    match top
    case None => c
    case Some(t) =>
      var p := PhaseAt(t, innerHeight);
      c.(phase := p, pin := Pin(p))
  }

  /** Mounting: the initial states (phase 0, pinned), then the effect's first
      `update()`. */
  function Mount(top: Option<real>, innerHeight: nat): Controller {
    Update(Controller(innerHeight, Finite(0.0), true, false, 0, true), top, innerHeight)
  }

  /** One event. A scroll requests a frame only when none is pending; the
      frame runs `update()` and clears `ticking`; a resize records the new
      height and updates at once; unmounting detaches the listeners but does
      not cancel a frame already requested. Such a frame still runs, but
      React has cleared the section's ref by then, so `update()` returns at
      once whatever the event's `top` says. */
  function Step(c: Controller, e: Event): Controller {
    match e
    case Scroll =>
      if c.listening && !c.ticking then c.(ticking := true, scheduled := c.scheduled + 1)
      else c
    case AnimationFrame(top, ih) =>
      if c.scheduled == 0 then c
      else Update(c, if c.listening then top else None, ih).(ticking := false, scheduled := c.scheduled - 1)
    case Resize(top, ih) =>
      if c.listening then Update(c.(vh := ih), top, ih) else c
    case Unmount =>
      c.(listening := false)
  }

  function Run(c: Controller, events: seq<Event>): Controller
    decreases |events|
  {
    if |events| == 0 then c else Run(Step(c, events[0]), events[1..])
  }

  /** The controller's invariant: a frame is pending exactly while `ticking`
      is set (so never more than one), `pin` agrees with the phase, and the
      phase is NaN or a number in [0, 1]. */
  predicate Consistent(c: Controller) {
    && c.scheduled == (if c.ticking then 1 else 0)
    && c.pin == Pin(c.phase)
    && (c.phase.NaN? || (c.phase.Finite? && 0.0 <= c.phase.value <= 1.0))
  }

  /** While a frame is pending, further scroll events change nothing. */
  lemma ScrollWhileTickingIsIgnored(c: Controller)
    requires c.ticking
    ensures Step(c, Scroll) == c
  {
  }

  /** Running the pending frame clears the flag, so the next scroll may
      request a new one. */
  lemma FrameClearsTicking(c: Controller, top: Option<real>, ih: nat)
    requires Consistent(c) && c.ticking
    ensures !Step(c, AnimationFrame(top, ih)).ticking
    ensures Step(c, AnimationFrame(top, ih)).scheduled == 0
    ensures c.listening ==> Step(Step(c, AnimationFrame(top, ih)), Scroll).ticking
  {
  }

  /** Every event keeps the controller consistent. */
  lemma StepConsistent(c: Controller, e: Event)
    requires Consistent(c)
    ensures Consistent(Step(c, e))
  {
    match e
    case AnimationFrame(top, ih) =>
      if top.Some? && c.scheduled > 0 && c.listening {
        assert Step(c, e).phase == PhaseAt(top.value, ih);
      }
    case Resize(top, ih) =>
    case _ =>
  }

  /** From mounting on, whatever the browser does, at most one frame is ever
      pending and the phase stays in [0, 1] (or NaN). */
  lemma {:induction false} RunConsistent(c: Controller, events: seq<Event>)
    requires Consistent(c)
    ensures Consistent(Run(c, events))
    ensures Run(c, events).scheduled <= 1
    decreases |events|
  {
    if |events| > 0 {
      StepConsistent(c, events[0]);
      RunConsistent(Step(c, events[0]), events[1..]);
    }
  }

  /** Mounting yields a consistent controller. */
  lemma MountConsistent(top: Option<real>, innerHeight: nat)
    ensures Consistent(Mount(top, innerHeight))
    ensures Mount(top, innerHeight).listening && !Mount(top, innerHeight).ticking
  {
  }

  /** After unmounting nothing the page shows changes any more: no new frame
      is requested (the count only goes down), the height, phase and pin stay
      as they were, and a frame requested before the cleanup finds no section. */
  lemma {:induction false} NoNewFramesAfterUnmount(c: Controller, events: seq<Event>)
    requires !c.listening
    ensures Run(c, events).scheduled <= c.scheduled
    ensures !Run(c, events).listening
    ensures Run(c, events).vh == c.vh
    ensures Run(c, events).phase == c.phase && Run(c, events).pin == c.pin
    decreases |events|
  {
    if |events| > 0 {
      NoNewFramesAfterUnmount(Step(c, events[0]), events[1..]);
    }
  }
}

=== FILE: services.dfy ===
/** The services list and its hover preview (components/services.tsx).

    Eight service cards are listed. While the pointer moves over the section,
    every card whose bounding box's right half contains the pointer makes its
    service the focused one (the last such card wins); with no such card
    nothing is focused. The focused card is highlighted, and on large screens
    a preview image follows the pointer. Leaving the section clears the focus.

    Card geometry (`getBoundingClientRect()`) and the window width are
    inputs; the spring that smooths the preview's motion is not modelled. */
module ServiceHover {
  import opened Wrappers

  /** A service as far as the hover logic uses it: the card's title, its
      two-digit number (used to compare services) and its preview image. */
  datatype Service = Service(title: string, number: string, url: string)

  /** The `services` table, in display order. */
  const Services: seq<Service> := [
    Service("Figma Design", "01", "https://images.pexels.com/photos/9002742/pexels-photo-9002742.jpeg"),
    Service("Website Development", "02", "https://images.pexels.com/photos/31622979/pexels-photo-31622979.jpeg"),
    Service("App Development", "03", "https://images.pexels.com/photos/12187128/pexels-photo-12187128.jpeg"),
    Service("Automation", "04", "https://images.pexels.com/photos/28168248/pexels-photo-28168248.jpeg"),
    Service("Data Scraping", "05", "https://images.pexels.com/photos/9002742/pexels-photo-9002742.jpeg"),
    Service("Shopify Solutions", "06", "https://images.pexels.com/photos/31622979/pexels-photo-31622979.jpeg"),
    Service("Chatbot Development", "07", "https://images.pexels.com/photos/12187128/pexels-photo-12187128.jpeg"),
    Service("AI Agents", "08", "https://images.pexels.com/photos/28168248/pexels-photo-28168248.jpeg")
  ]

  /** The two-digit label of position `i` (0-based): "01" for the first. */
  function TwoDigits(i: nat): string
    requires i < 99
  {
    [(('0' as int) + (i + 1) / 10) as char, (('0' as int) + (i + 1) % 10) as char]
  }

  /** The cards are numbered "01" to "08" in order, so their numbers are
      pairwise distinct. */
  lemma ServiceNumbers()
    ensures |Services| == 8
    ensures forall i :: 0 <= i < |Services| ==> Services[i].number == TwoDigits(i)
    ensures forall i, j :: 0 <= i < j < |Services| ==> Services[i].number != Services[j].number
  {
    forall i, j | 0 <= i < j < |Services|
      ensures Services[i].number != Services[j].number
    {
      assert Services[i].number[1] != Services[j].number[1];
    }
  }

  /** A card's bounding box as `getBoundingClientRect()` reports it. */
  datatype Rect = Rect(left: real, top: real, width: real, right: real, bottom: real)

  /** The hit test: the pointer lies in the right half of the box, all four
      bounds inclusive. */
  predicate InRightHalf(r: Rect, x: real, y: real) {
    r.left + r.width / 2.0 <= x <= r.right && r.top <= y <= r.bottom
  }

  /** Card `i` is mounted (its ref is not null) and its right half holds the
      pointer. */
  predicate CardMatches(refs: seq<Option<Rect>>, i: nat, x: real, y: real)
    requires i < |refs|
  {
    refs[i].Some? && InRightHalf(refs[i].value, x, y)
  }

  /** A pointer strictly left of a card's horizontal midpoint never matches
      that card, whatever its height. */
  lemma LeftHalfNeverMatches(refs: seq<Option<Rect>>, i: nat, x: real, y: real)
    requires i < |refs| && refs[i].Some?
    requires x < refs[i].value.left + refs[i].value.width / 2.0
    ensures !CardMatches(refs, i, x, y)
  {
  }

  /** The index of the last matching card, if any: the card the forEach in
      `onMouseTrack` leaves selected, since every later match overwrites the
      earlier ones. */
  function LastMatch(refs: seq<Option<Rect>>, x: real, y: real): (m: Option<nat>)
    ensures m.Some? ==> m.value < |refs| && CardMatches(refs, m.value, x, y)
    ensures m.Some? ==> forall j :: m.value < j < |refs| ==> !CardMatches(refs, j, x, y)
    ensures m.None? <==> forall j :: 0 <= j < |refs| ==> !CardMatches(refs, j, x, y)
    decreases |refs|
  {
    if |refs| == 0 then None
    else if CardMatches(refs, |refs| - 1, x, y) then Some(|refs| - 1)
    else
      var prefix := refs[..|refs| - 1];
      PrefixMatches(refs, x, y);
      var m := LastMatch(prefix, x, y);
      assert m.Some? ==> m.value < |prefix| && CardMatches(refs, m.value, x, y);
      assert m.None? ==> forall j :: 0 <= j < |prefix| ==> !CardMatches(refs, j, x, y);
      m
  }

  /** Dropping the last card does not change whether the others match. */
  lemma PrefixMatches(refs: seq<Option<Rect>>, x: real, y: real)
    requires |refs| > 0
    ensures forall j :: 0 <= j < |refs| - 1 ==>
              CardMatches(refs[..|refs| - 1], j, x, y) == CardMatches(refs, j, x, y)
  {
  }

  /** `services[index]`: the service at a card index, or `undefined` (here
      `None`) past the end of the table. */
  function ServiceAt(index: Option<nat>): (s: Option<Service>)
    ensures s.Some? <==> index.Some? && index.value < |Services|
    ensures s.Some? ==> s.value == Services[index.value]
  {
    if index.Some? && index.value < |Services| then Some(Services[index.value]) else None
  }

  /** The focus `onMouseTrack` sets: the service of the last matching card. */
  function TrackedFocus(refs: seq<Option<Rect>>, x: real, y: real): Option<Service> {
    ServiceAt(LastMatch(refs, x, y))
  }

  /** `onMouseTrack` as written: a forEach over the card refs keeping a
      "hovering" flag and the last hovered service, then the focus is that
      service if both are set and null otherwise. The result is the service of
      the last card whose right half holds the pointer; with no more refs than
      services it is null exactly when no mounted card matches. */
  method OnMouseTrack(refs: seq<Option<Rect>>, x: real, y: real) returns (focused: Option<Service>)
    ensures focused == TrackedFocus(refs, x, y)
    ensures focused.Some? ==>
              exists k :: 0 <= k < |refs| && k < |Services| && CardMatches(refs, k, x, y)
                          && focused.value == Services[k]
                          && forall j :: k < j < |refs| ==> !CardMatches(refs, j, x, y)
    ensures |refs| <= |Services| ==>
              (focused.None? <==> forall j :: 0 <= j < |refs| ==> !CardMatches(refs, j, x, y))
  {
    var hovering := false;
    var hovered: Option<Service> := None;
    var i := 0;
    while i < |refs|
      invariant 0 <= i <= |refs|
      invariant hovering <==> LastMatch(refs[..i], x, y).Some?
      invariant hovered == ServiceAt(LastMatch(refs[..i], x, y))
    {
      assert refs[..i + 1][..i] == refs[..i];
      assert CardMatches(refs[..i + 1], i, x, y) == CardMatches(refs, i, x, y);
      if refs[i].Some? {
        var rect := refs[i].value;
        var rightHalfX := rect.left + rect.width / 2.0;
        if x >= rightHalfX && x <= rect.right && y >= rect.top && y <= rect.bottom {
          hovering := true;
          hovered := if i < |Services| then Some(Services[i]) else None;
        }
      }
      i := i + 1;
    }
    assert refs[..|refs|] == refs;
    if hovering && hovered.Some? {
      focused := hovered;
    } else {
      focused := None;
    }
    if focused.Some? {
      var k := LastMatch(refs, x, y).value;
      assert k < |Services| && focused.value == Services[k];
    }
  }

  /** `updateScreen`: a large screen is at least 768px wide. */
  function IsLargeScreen(innerWidth: int): bool {
    innerWidth >= 768
  }

  /** The section's hover state: the focused service and the screen size. */
  datatype HoverState = HoverState(focused: Option<Service>, isLargeScreen: bool)

  /** Nothing focused; screens count as large until first measured. */
  const Initial: HoverState := HoverState(None, true)

  datatype HoverEvent =
    | MouseMove(refs: seq<Option<Rect>>, x: real, y: real)
    | MouseLeave
    | WindowResize(innerWidth: int)

  function Step(s: HoverState, e: HoverEvent): HoverState {
    match e
    case MouseMove(refs, x, y) => s.(focused := TrackedFocus(refs, x, y))
    case MouseLeave => s.(focused := None)
    case WindowResize(w) => s.(isLargeScreen := IsLargeScreen(w))
  }

  /** The mount effect measures the screen once, so the state the section
      settles in is the initial one after a resize to the current width. */
  function Mounted(innerWidth: int): (s: HoverState)
    ensures s.focused.None?
    ensures s.isLargeScreen <==> innerWidth >= 768
  {
    Step(Initial, WindowResize(innerWidth))
  }

  /** `onHoverDeactivate`: leaving the section clears the focus whatever
      it was, and leaves the screen size alone. */
  lemma MouseLeaveClearsFocus(s: HoverState)
    ensures Step(s, MouseLeave).focused.None?
    ensures Step(s, MouseLeave).isLargeScreen == s.isLargeScreen
  {
  }

  /** A resize measures the screen: large exactly from 768px on, focus kept. */
  lemma ResizeMeasuresScreen(s: HoverState, innerWidth: int)
    ensures Step(s, WindowResize(innerWidth)).isLargeScreen <==> innerWidth >= 768
    ensures Step(s, WindowResize(innerWidth)).focused == s.focused
  {
  }

  function Run(s: HoverState, events: seq<HoverEvent>): HoverState
    decreases |events|
  {
    if |events| == 0 then s else Run(Step(s, events[0]), events[1..])
  }

  /** The focus is always null or one of the listed services. */
  predicate FocusListed(s: HoverState) {
    s.focused.Some? ==> s.focused.value in Services
  }

  lemma {:induction false} RunKeepsFocusListed(s: HoverState, events: seq<HoverEvent>)
    requires FocusListed(s)
    ensures FocusListed(Run(s, events))
    decreases |events|
  {
    if |events| > 0 {
      RunKeepsFocusListed(Step(s, events[0]), events[1..]);
    }
  }

  /** Card `i` is highlighted when the focused service has its number. */
  predicate Highlighted(s: HoverState, i: nat)
    requires i < |Services|
  {
    s.focused.Some? && s.focused.value.number == Services[i].number
  }

  /** Because the numbers are distinct, a focused listed service highlights
      exactly its own card, and no focus highlights none. */
  lemma HighlightExactlyOne(s: HoverState)
    requires FocusListed(s)
    ensures s.focused.None? ==> forall i :: 0 <= i < |Services| ==> !Highlighted(s, i)
    ensures s.focused.Some? ==>
              exists k :: 0 <= k < |Services| && Services[k] == s.focused.value &&
                forall i :: 0 <= i < |Services| ==> (Highlighted(s, i) <==> i == k)
  {
    ServiceNumbers();
    if s.focused.Some? {
      var k :| 0 <= k < |Services| && Services[k] == s.focused.value;
      assert forall i :: 0 <= i < |Services| ==> (Highlighted(s, i) <==> i == k);
    }
  }

  /** The floating preview is shown exactly on a large screen with a focus. */
  function ShowsPreview(s: HoverState): (shown: bool)
    ensures shown <==> s.isLargeScreen && s.focused.Some?
  {
    s.isLargeScreen && s.focused.Some?
  }

  /** How each event decides the preview: after a pointer move it is shown
      exactly on a large screen when the pointer is over the right half of a
      listed card; leaving the section hides it; a resize shows it exactly
      when the new width is at least 768px and something is focused. */
  lemma PreviewFollowsEvents(s: HoverState, refs: seq<Option<Rect>>, x: real, y: real, innerWidth: int)
    ensures ShowsPreview(Step(s, MouseMove(refs, x, y))) <==>
              s.isLargeScreen && LastMatch(refs, x, y).Some? && LastMatch(refs, x, y).value < |Services|
    ensures !ShowsPreview(Step(s, MouseLeave))
    ensures ShowsPreview(Step(s, WindowResize(innerWidth))) <==> innerWidth >= 768 && s.focused.Some?
  {
  }

  /** On a screen narrower than 768px the preview never appears, whatever
      the pointer does, until a resize. */
  lemma {:induction false} NoPreviewOnSmallScreens(s: HoverState, events: seq<HoverEvent>)
    requires !s.isLargeScreen
    requires forall k :: 0 <= k < |events| ==> !events[k].WindowResize?
    ensures !ShowsPreview(Run(s, events))
    decreases |events|
  {
    if |events| > 0 {
      assert forall k :: 0 <= k < |events[1..]| ==> events[1..][k] == events[k + 1];
      NoPreviewOnSmallScreens(Step(s, events[0]), events[1..]);
    }
  }

  /** A separator line follows every card but the last. */
  function HasSeparator(index: nat): bool {
    index < |Services| - 1
  }

  /** Of the eight cards exactly the last one has no separator after it. */
  lemma SeparatorsBetweenCards()
    ensures forall i :: 0 <= i < |Services| ==> (HasSeparator(i) <==> i != |Services| - 1)
    ensures HasSeparator(0) && !HasSeparator(7)
  {
  }

  /** Mounted in a window narrower than 768px, the section shows no preview
      until the window is resized, however the pointer moves. */
  lemma MountedNarrowShowsNoPreview(innerWidth: int, events: seq<HoverEvent>)
    requires innerWidth < 768
    requires forall k :: 0 <= k < |events| ==> !events[k].WindowResize?
    ensures !ShowsPreview(Mounted(innerWidth))
    ensures !ShowsPreview(Run(Mounted(innerWidth), events))
  {
    NoPreviewOnSmallScreens(Mounted(innerWidth), events);
  }
}

=== FILE: wrappers.dfy ===
/** Optional values, used where the source has `null`/`undefined` or an
    early return. */
module Wrappers {

  /** `None` stands for `null` (or a missing value); `Some(v)` for a present one. */
  datatype Option<+T> = None | Some(value: T) {

    /** The wrapped value, or `default` when there is none. */
    function GetOr(default: T): T {
      match this
      case Some(v) => v
      case None => default
    }
  }
}
